=== FILE: README.md ===
# HTMLQuery query engine in Dafny

HTMLQuery is a small C# library that selects elements from an HTML text
without parsing it. A `Query` wraps a normalised source text, with carriage
returns and line feeds replaced by spaces. `Select` turns a CSS-like selector
into a literal search text and splits the source on it, dropping empty pieces
(`GetSplitIndices`). Each piece after the first gives one anchor, just past
the end of the piece before it. From each anchor it walks back to the last `<`
(`FindStartTag`) and reads the tag name there (`FindTagName`). It then
measures the element by splitting on the literal open and close tags and
counting them until they balance (`FindEndTag`). `Value` reads an attribute,
`Inner` cuts out the inner markup, and `StripHtml` removes the tags. The
extension methods `Delete` and `Between` exist twice in the repository, once
in `HTMLQuery/Extensions.cs` and once in the root `Extensions.cs`.

This project models that engine as pure functions on `string` (`seq<char>`).
Every exception the C# code throws on a non-null input becomes one variant of `Results.Error`,
and each operation returns `Result<T>`. The modules follow the source:

- `Results` holds the error variants and the `Result` type.
- `Strings` holds the .NET string operations, with ordinal comparison: `IndexOf`, `LastIndexOf`, `IndexOfAny`, `TrimStart`, `Replace`, the pieces of an ordinal `Split`, the `RemoveEmptyEntries` filter, and `Char.IsWhiteSpace`. It also holds small facts about slices that the proofs share.
- `Patterns` holds the two regular expressions, written as literal scanners. One is the capturing split on `<tag` and `</tag>` in `FindEndTag`; the other is the `<[^>]*>` removal in `StripHtml`.
- `Extensions` and `RootExtensions` hold the two copies of `Delete` and `Between`.
- `Spans` holds the constructor, the `Split` call with `RemoveEmptyEntries` that `GetSplitIndices` makes (`Spans.SplitRemovingEmpty`), and the private members `GetSplitIndices`, `FindStartTag`, `FindTagName` and `FindEndTag`.
- `HtmlQuery` holds `Select`, `Value`, `Inner` and `StripHtml`.

The model keeps the behaviour of the code as written:

- A `#id` selector never succeeds. The recursive `Select` result is discarded and the loop then reads a null `indices`.
- A splitter that does not occur throws.
- An occurrence at the very start of the text, or directly after another one, leaves an empty piece that the split drops, and the anchors shift with it. `<b>a</b>` searched for `<b` gives no anchor at all, so `Select` on the selector `b` returns no element.
- An empty text leaves the split without pieces, so `split[0]` throws even for the selector `.`.
- An element without a matching end tag throws.
- `Inner` does not clamp a negative length.
- The tag name `<div` is a prefix match, so it also counts `<divider`.
- `FindEndTag` returns a length counted from the start tag, and `Select` uses it as a length.

`FindEndTag` is modelled in two layers. The first is a scanner with a depth counter (`Spans.MatchEnd`). The second is an independent reference: the list of delimiter matches (`Patterns.Delimiters`), with the first prefix whose depth returns to zero. The two are proved to agree.

## Model

| member | source | states |
|---|---|---|
| Spans.Normalise | HTMLQuery/Query.cs:29 | same length as the input, no `\r` or `\n` left; each carriage return or line feed becomes a space, every other character is kept |
| Spans.NormaliseIdempotent | HTMLQuery/Query.cs:29 | normalising twice is normalising once; text without `\r` or `\n` is left as it is |
| Spans.New | HTMLQuery/Query.cs:27-30 | the constructor keeps the length, turns each carriage return or line feed into a space and keeps every other character; an already normalised text is kept as it is |
| Strings.IndexOfString | HTMLQuery/Query.cs:98 | ordinal `IndexOf(string)`: -1 exactly when the text does not contain the pattern, otherwise its first occurrence |
| Strings.OccurrencesMatch | HTMLQuery/Query.cs:143 | the split cuts where the separator occurs, and the cuts do not overlap |
| Strings.OccurrencesLeftmost | HTMLQuery/Query.cs:143 | the k-th cut is the k-th leftmost non-overlapping occurrence: the separator occurs nowhere before the first cut, between one cut's end and the next cut, or after the last cut's end |
| Strings.PiecesCount | HTMLQuery/Query.cs:143 | a split yields one piece more than there are cuts |
| Strings.JoinPieces | HTMLQuery/Query.cs:143 | joining the pieces with the separator gives back the text the split started from |
| Strings.RemoveEmpty | HTMLQuery/Query.cs:143 | `RemoveEmptyEntries` keeps exactly the non-empty pieces, and changes nothing when no piece is empty |
| Strings.RemoveEmptyAppend | HTMLQuery/Query.cs:143 | the filter works piece by piece over a concatenation, so the kept pieces stay in order and keep their repetitions |
| Strings.PiecesWithoutSeparator | HTMLQuery/Query.cs:143 | no piece of a split contains the separator |
| Spans.SplitRemovingEmpty | HTMLQuery/Query.cs:143 | an empty text gives no pieces; an empty splitter leaves a non-empty text as the only piece; a non-empty splitter gives the non-empty pieces of the ordinal split; no piece is ever empty |
| Spans.AnchorsIncrease | HTMLQuery/Query.cs:145-155 | every offset the loop records lies past the length it starts from, and the offsets strictly increase when no piece is empty |
| Spans.PieceAnchors | HTMLQuery/Query.cs:145-157 | one offset per piece after the first, each at least 1, strictly increasing |
| Spans.GetSplitIndices | HTMLQuery/Query.cs:138-158 | throws "No instances" exactly when the splitter does not occur; throws on `split[0]` exactly when the text is only splitters; otherwise the offsets are positive and strictly increasing; an empty splitter gives no offsets in a non-empty text and throws on `split[0]` in an empty one |
| Spans.SplitConsistent | HTMLQuery/Query.cs:143 | the pieces and the cut positions describe the same cut: each cut starts where the piece before it ends |
| Spans.SpacedPieces | HTMLQuery/Query.cs:143 | when no cuts touch and none is at either end of the text, no piece is empty |
| Spans.AnchorsAtOccurrences | HTMLQuery/Query.cs:145-155 | over a cut, the loop's offsets are the cut positions shifted by a constant |
| Spans.GetSplitIndicesAtOccurrences | HTMLQuery/Query.cs:138-158 | when the text neither starts nor ends with the splitter and no occurrences touch, the k-th offset is the start of the k-th occurrence plus one |
| Spans.FindStartTag | HTMLQuery/Query.cs:165-169 | throws exactly when the anchor is outside the text; otherwise returns the last `<` before the anchor, or -1 when there is none |
| Strings.LastIndexOfCharBefore | HTMLQuery/Query.cs:167-168 | `Substring(0, n).LastIndexOf(c)`: the last `c` before `n`, or -1 when there is none |
| Strings.TrimStart | HTMLQuery/Query.cs:227 | drops exactly the leading white space: what remains is a suffix that does not start with white space |
| Strings.IndexOfAny | HTMLQuery/Query.cs:228-232 | -1 exactly when neither character occurs, otherwise the first position holding one of them |
| Spans.FindTagName | HTMLQuery/Query.cs:225-233 | the name contains neither a space nor `>`, and does not start with white space |
| Spans.FindTagNameReads | HTMLQuery/Query.cs:225-233 | fails exactly when no space and no `>` follow the white space after `start`; otherwise the name is the text from the first non-white character up to the first space or `>` |
| Spans.FindTagNameAsWritten | HTMLQuery/Query.cs:227-232 | the scanner agrees, result and failure, with `Substring(start).Delete().TrimStart()` followed by `Substring(0, IndexOfAny(' ', '>'))` |
| Patterns.Delimiters | HTMLQuery/Query.cs:194-195 | every delimiter match of the capturing split lies at or after the scan position, and the open or close literal occurs where each match says; a close match is never at a position where the open literal matches, since the open alternative is tried first |
| Patterns.DelimitersComplete | HTMLQuery/Query.cs:194-195 | every position where either literal matches, and that lies strictly inside no listed match, starts a listed match |
| Patterns.DelimitersInOrder | HTMLQuery/Query.cs:194-195 | the matches of the alternation never overlap |
| Spans.MatchEnd | HTMLQuery/Query.cs:198-217 | the counting loop either returns a length that consumes at least one character and at most the text, or throws one of the two end-of-scan errors |
| Spans.MatchEndFirstBalance | HTMLQuery/Query.cs:198-217 | the loop returns the end of the first delimiter at which the depth, counted from the start value, is zero; it fails exactly when no prefix balances, with the error chosen by the sign of the final depth |
| Spans.EndTagLength | HTMLQuery/Query.cs:184-217 | the length of the element is positive and never exceeds the remaining text; failures are "No matching end tag" or "No tag found" |
| Spans.EndTagLengthFirstBalance | HTMLQuery/Query.cs:198-217 | success is the end of the first delimiter that balances the open and close counts; "No matching end tag" exactly when more tags were opened than closed, "No tag found" exactly when not; a failure never has a balanced prefix |
| Patterns.FirstBalanceEndsWithClose | HTMLQuery/Query.cs:201-211 | a delimiter list that starts with an open tag first balances on a close tag, after at least two delimiters |
| Spans.EndTagLengthEndsWithClose | HTMLQuery/Query.cs:184-211 | when the text starts with `<tag`, a successful length ends exactly on a `</tag>` |
| Spans.FindEndTagEndsWithClose | HTMLQuery/Query.cs:176-211 | when the name follows the `<` directly, the measured element ends with `</name>` |
| Spans.FindEndTag | HTMLQuery/Query.cs:176-218 | out-of-range start and empty rest throw; a start not at `<` throws "must begin with a tag"; otherwise it measures from the tag name, and a success is at most the remaining length |
| HtmlQuery.SearchText | HTMLQuery/Query.cs:50-64 | `.c` searches for `c`, `[name]value` for `name="value"` and fails without `]`, any other selector `s` searches for `<s` |
| HtmlQuery.ElementAt | HTMLQuery/Query.cs:72-79 | an element is resolved exactly when a `<` is found before the anchor and `FindEndTag` measures an element there; otherwise the exception of the failing step is rethrown; a resolved element is the contiguous slice of the source from that `<` |
| HtmlQuery.ElementAtStartsAtLastOpen | HTMLQuery/Query.cs:72-79 | a resolved element starts at the last `<` before its anchor, begins with `<`, and is as long as `FindEndTag` says |
| HtmlQuery.ElementAtNoOpen | HTMLQuery/Query.cs:72-79 | an anchor outside the text, or with no `<` before it, throws an argument error |
| HtmlQuery.Collect | HTMLQuery/Query.cs:67-83 | the loop succeeds exactly when every element resolves, then wraps each one in a new query, in order; otherwise it rethrows the first failure |
| HtmlQuery.SelectAll | HTMLQuery/Query.cs:67-83 | exactly one element per anchor, in anchor order, or the first anchor's failure |
| HtmlQuery.Select | HTMLQuery/Query.cs:37-84 | an empty selector throws; `#` selectors never succeed, rethrowing the exception of the `[id]` search or else failing on the null indices; a failing search text or splitter search is rethrown; otherwise the result is that of the loop over the anchors (`SelectAll`), and a success holds one element per anchor of the search text |
| HtmlQuery.SelectDropsLeadingOccurrence | HTMLQuery/Query.cs:138-158 | an occurrence at the start of the text gets no anchor: `Select` for `b` on `<b>a</b>` returns no element |
| HtmlQuery.SelectReturnsElements | HTMLQuery/Query.cs:67-83 | every element `Select` returns begins with `<` |
| HtmlQuery.ValueOffset | HTMLQuery/Query.cs:97-98 | the reading position is just after the first `property="`, or the length of `property="` minus one when there is none |
| HtmlQuery.Value | HTMLQuery/Query.cs:92-100 | an empty source or one not starting with `<` throws; otherwise it fails exactly when the start is past the end or no `"` follows; a value runs up to the first `"` and holds none |
| HtmlQuery.ValueOfAttribute | HTMLQuery/Query.cs:92-100 | writing `property="value"` into an element and reading it back with `Value` returns the value |
| HtmlQuery.InnerOf | HTMLQuery/Query.cs:111-112 | the slice from just after the first `>` to `|tag| + 3` before the end; fails exactly when that length is negative |
| HtmlQuery.Inner | HTMLQuery/Query.cs:106-113 | an empty source or one not starting with `<` throws; an unreadable tag name throws; otherwise it cuts the slice of `InnerOf` |
| HtmlQuery.InnerOfElement | HTMLQuery/Query.cs:106-113 | `Inner` on `<tag>body</tag>` returns the body |
| Patterns.RemoveTags | HTMLQuery/Query.cs:121 | the result holds no `<` followed later by `>`, is no longer than the input, and holds only characters of the input |
| Patterns.RemoveTagsKeepsPrefix | HTMLQuery/Query.cs:121 | every character before the first `<` is kept |
| Patterns.RemoveTagsDropsTag | HTMLQuery/Query.cs:121 | a `<` is deleted together with the text up to and including the first `>` after it |
| Patterns.RemoveTagsAround | HTMLQuery/Query.cs:121 | on `p<x>t`, with no `<` in `p` and no `>` in `x`, the result is `p` followed by the removal on `t` |
| Patterns.RemoveTagsKeepsPlainText | HTMLQuery/Query.cs:121 | text without a tag is left unchanged |
| Patterns.RemoveTagsIdempotent | HTMLQuery/Query.cs:121 | removing the tags twice is removing them once |
| HtmlQuery.StripHtml | HTMLQuery/Query.cs:119-122 | the decoder is given exactly the output of the tag removal, a tag-free text no longer than the source; a tag-free source is only decoded |
| Extensions.Delete | HTMLQuery/Extensions.cs:17-20 | an empty input throws; otherwise the result is one character shorter and putting the first character back gives the input |
| Extensions.StartAfter | HTMLQuery/Extensions.cs:31 | the position just after the first `from`, or 0 when there is none |
| Extensions.Between | HTMLQuery/Extensions.cs:29-33 | fails exactly when `to` is missing or its first occurrence lies before the start; otherwise the slice from the start up to the first `to`, which holds no `to` |
| Extensions.BetweenParentheses | HTMLQuery/Extensions.cs:29-33 | on a text with one parenthesised part, `Between('(', ')')` returns what is inside |
| Extensions.BetweenStyleUrl | HTMLQueryTests/Utilities.cs:24 | `background:url(bg.jpg)` cut between `(` and `)` is `bg.jpg` |
| RootExtensions.Delete | Extensions.cs:15-18 | an empty input throws; otherwise the result is the input without its first character, one shorter |
| RootExtensions.Between | Extensions.cs:27-31 | fails exactly when `to` is missing or comes before the start; otherwise the slice from the start up to the first `to`, which holds no `to` |

## Left out

- `WebUtility.HtmlDecode` in `StripHtml` is a library routine. It enters the model as the function parameter `decode`, and nothing is assumed about it.
- `InclusiveSplit` in HTMLQuery/Extensions.cs is not modelled, because the engine never calls it.
- `ToString` is not modelled, because it only returns `Source`.
- The test fixtures are not modelled. They read HTML files that are not part of this model and call members (`Flatten`, `InnerHtml`) the engine does not have. The one exception is the `Between` example.
- Regular expressions in general are not modelled. Only the two patterns the engine uses are modelled, as literal scanners.
- `IndexOf(string)` and `StartsWith(string)` are culture-sensitive in .NET. They are modelled as ordinal comparisons, so culture-specific ignorable characters are not modelled. `Contains(string)` is ordinal in .NET, as modelled.
- `start.IndexOf("\"")` in `Value` is modelled as a search for the character `"`, which it equals under ordinal comparison.
- `Split` with an empty splitter, from the selector `.`, ignores the empty separator: a non-empty text is the only piece. An empty text gives no pieces whatever the splitter, as in .NET Framework and .NET Core alike.
- Null arguments are not modelled, because Dafny strings cannot be null. In C# a null selector throws `NullReferenceException` at `selector[0]`, and a null source throws it at `source.Replace` in the constructor.
- Text is modelled as a sequence of Unicode scalar values, while .NET measures `Length`, `IndexOf` and `Substring` in UTF-16 code units. For a text holding a character outside the Basic Multilingual Plane every length and offset therefore differs, and so do the results of `Inner`, `GetSplitIndices` and `Select`. `Inner` on `<x>ab` followed by one such character gives an empty query in C#, where the model throws on the length -1. A C# cut through a surrogate pair cannot be represented either.
- C# `int` is 32 bits wide and the model uses unbounded integers. The offsets are bounded by string lengths, which .NET keeps below 2^31, so no wrap-around can occur.
- Exception classes become error variants. The message of `SplitterNotFound` keeps the splitter but not the surrounding text.
- Spans.FindEndTagEndsWithClose: stated only when the tag name follows the `<` directly. With white space in between, `<name` does not occur at the start and the balance can end on an open tag.
- Spans.GetSplitIndicesAtOccurrences: stated only when no occurrences touch and none is at either end. Otherwise `RemoveEmptyEntries` drops pieces and the offsets shift, as `Spans.GetSplitIndices` models.

=== FILE: extensions.dfy ===
/**
  The string extension methods of HTMLQuery/Extensions.cs that the query
  engine uses: `Delete` and `Between`.
 */
module Extensions {
  import opened Results
  import opened Strings

  /** `input.Delete()`, i.e. `input.Substring(1)`: the text without its first
      character; an empty text has no first character to drop. */
  function Delete(input: string): (r: Result<string>)
    ensures r.Failure? <==> |input| == 0
    ensures r.Failure? ==> r.error == ArgumentOutOfRange
    ensures r.Success? ==> |r.value| == |input| - 1 && input == [input[0]] + r.value
  {
    if |input| == 0 then Failure(ArgumentOutOfRange) else Success(input[1..])
  }

  /** Where `Between` starts reading: just after the first `from`, or at 0
      when there is none (`IndexOf` gives -1, plus one). */
  predicate BetweenStart(input: string, from: char, start: int) {
    if from in input then start >= 1 && FirstAt(input, from, start - 1) else start == 0
  }

  /** `input.IndexOf(from) + 1`, the position `Between` and `Inner` start
      reading from. */
  function StartAfter(input: string, from: char): (start: int)
    ensures BetweenStart(input, from, start)
    ensures 0 <= start <= |input|
  {
    IndexOfChar(input, from) + 1
  }

  /** The start position is determined by the text and the character. */
  lemma BetweenStartUnique(input: string, from: char, a: int, b: int)
    requires BetweenStart(input, from, a) && BetweenStart(input, from, b)
    ensures a == b
  {
    if from in input {
      FirstAtUnique(input, from, a - 1, b - 1);
    }
  }

  /** `input.Between(from, to)`:
      `input.Substring(input.IndexOf(from) + 1, input.IndexOf(to) - start)`. */
  function Between(input: string, from: char, to: char): (r: Result<string>)
    // it fails exactly when `to` is missing or its first occurrence is before the start
    ensures r.Failure? <==>
      to !in input || exists start, end :: BetweenStart(input, from, start) && FirstAt(input, to, end) && end < start
    ensures r.Failure? ==> r.error == ArgumentOutOfRange
    // otherwise it is the slice from the start up to the first `to`
    ensures r.Success? ==> to !in r.value
    ensures forall start :: BetweenStart(input, from, start) && r.Success? ==>
      start + |r.value| < |input| && FirstAt(input, to, start + |r.value|) && r.value == input[start..start + |r.value|]
  {
    var start := StartAfter(input, from);
    var end := IndexOfChar(input, to);
    if end - start < 0 then
      assert to in input ==> BetweenStart(input, from, start) && FirstAt(input, to, end);
      Failure(ArgumentOutOfRange)
    else
      assert BetweenStart(input, from, start);
      assert forall s :: BetweenStart(input, from, s) ==> s == start by {
        forall s | BetweenStart(input, from, s) ensures s == start {
          BetweenStartUnique(input, from, s, start);
        }
      }
      assert input[..end][start..] == input[start..end];
      Success(input[start..end])
  }

  /** A text with one parenthesised part: `Between('(', ')')` returns what
      is inside the parentheses. */
  lemma BetweenParentheses(a: string, b: string)
    requires '(' !in a && ')' !in a && '(' !in b && ')' !in b
    ensures Between(a + "(" + b + ")", '(', ')') == Success(b)
  {
    var input := a + "(" + b + ")";
    var open := |a|;
    var close := |a| + 1 + |b|;
    assert input[..open] == a && input[open] == '(';
    FirstAtUnique(input, '(', IndexOfChar(input, '('), open);
    assert input[..close] == a + "(" + b && input[close] == ')';
    FirstAtUnique(input, ')', IndexOfChar(input, ')'), close);
    assert input[open + 1..close] == b;
  }

  /** The value of a `style` attribute, cut between its parentheses. */
  lemma BetweenStyleUrl()
    ensures Between("background:url(bg.jpg)", '(', ')') == Success("bg.jpg")
  {
    var a, b := "background:url", "bg.jpg";
    assert "background:url(bg.jpg)" == a + "(" + b + ")";
    BetweenParentheses(a, b);
  }
}

=== FILE: patterns.dfy ===
/**
  The two regular expressions the query engine uses, written as literal
  scanners.

  - `Regex.Split(w, "(" + Regex.Escape(open) + "|" + Regex.Escape(close) + ")")`:
    a capturing alternation of two literals. The split keeps the captured
    delimiters, so what the caller sees is the ordered list of delimiter
    matches (`Delimiters`) with the plain text between them.
  - `Regex.Replace(s, "<[^>]*>", "")`: deletes every `<`, the run of
    non-`>` characters after it, and the closing `>` (`RemoveTags`).
 */
module Patterns {
  import opened Strings

  /** One captured delimiter of the split, by its start position. */
  datatype Delimiter = Open(at: nat) | Close(at: nat)

  /** Position just past the delimiter's matched text. */
  function End(d: Delimiter, open: string, close: string): nat {
    d.at + if d.Open? then |open| else |close|
  }

  /** The delimiter matches of the alternation `open|close` in `w` from `pos`
      on. The regex engine tries the alternatives in order at each position,
      so where both literals match the open one wins; after a match scanning
      resumes at its end, otherwise one character further. */
  function Delimiters(w: string, open: string, close: string, pos: nat): (ds: seq<Delimiter>)
    requires 0 < |open| && 0 < |close| && pos <= |w|
    ensures forall k :: 0 <= k < |ds| ==> pos <= ds[k].at
    ensures forall k :: 0 <= k < |ds| && ds[k].Open? ==> OccursAt(w, open, ds[k].at)
    ensures forall k :: 0 <= k < |ds| && ds[k].Close? ==> OccursAt(w, close, ds[k].at)
    // the open alternative is tried first, so a close match is never an open one
    ensures forall k :: 0 <= k < |ds| && ds[k].Close? ==> !OccursAt(w, open, ds[k].at)
    decreases |w| - pos
  {
    if pos == |w| then []
    else if OccursAt(w, open, pos) then
      var rest := Delimiters(w, open, close, pos + |open|);
      assert forall k :: 0 < k <= |rest| ==> ([Open(pos)] + rest)[k] == rest[k - 1];
      [Open(pos)] + rest
    else if OccursAt(w, close, pos) then
      var rest := Delimiters(w, open, close, pos + |close|);
      assert forall k :: 0 < k <= |rest| ==> ([Close(pos)] + rest)[k] == rest[k - 1];
      [Close(pos)] + rest
    else Delimiters(w, open, close, pos + 1)
  }

  /** At a position where a delimiter matches, the list starts with it and
      goes on from its end. */
  lemma {:induction false} DelimitersStep(w: string, open: string, close: string, pos: nat, e: Delimiter)
    requires 0 < |open| && 0 < |close| && pos < |w|
    requires e == (if OccursAt(w, open, pos) then Open(pos) else Close(pos))
    requires OccursAt(w, open, pos) || OccursAt(w, close, pos)
    ensures Delimiters(w, open, close, pos) == [e] + Delimiters(w, open, close, End(e, open, close))
  {
    if OccursAt(w, open, pos) {
      assert End(e, open, close) == pos + |open|;
    } else {
      assert End(e, open, close) == pos + |close|;
    }
  }

  /** Every match of the alternation is found: a position where either
      literal matches, and which lies strictly inside no match of the list,
      starts a delimiter of the list. */
  lemma {:induction false} DelimitersComplete(w: string, open: string, close: string, pos: nat, i: nat)
    requires 0 < |open| && 0 < |close| && pos <= i < |w|
    requires OccursAt(w, open, i) || OccursAt(w, close, i)
    requires forall k :: 0 <= k < |Delimiters(w, open, close, pos)| ==>
      !(Delimiters(w, open, close, pos)[k].at < i < End(Delimiters(w, open, close, pos)[k], open, close))
    ensures exists k :: 0 <= k < |Delimiters(w, open, close, pos)| && Delimiters(w, open, close, pos)[k].at == i
    decreases |w| - pos
  {
    var ds := Delimiters(w, open, close, pos);
    if OccursAt(w, open, pos) || OccursAt(w, close, pos) {
      var e := if OccursAt(w, open, pos) then Open(pos) else Close(pos);
      var rest := Delimiters(w, open, close, End(e, open, close));
      DelimitersStep(w, open, close, pos, e);
      HeadTail(ds, e, rest);
      if i != pos {
        assert End(e, open, close) <= i;
        forall k | 0 <= k < |rest|
          ensures !(rest[k].at < i < End(rest[k], open, close))
        {
          assert rest[k] == ds[k + 1];
        }
        DelimitersComplete(w, open, close, End(e, open, close), i);
        var k :| 0 <= k < |rest| && rest[k].at == i;
        assert ds[k + 1].at == i;
      }
    } else {
      assert ds == Delimiters(w, open, close, pos + 1);
      DelimitersComplete(w, open, close, pos + 1, i);
    }
  }

  /** The delimiters do not overlap: each one starts at or after the end of
      every earlier one. */
  predicate InOrder(ds: seq<Delimiter>, open: string, close: string) {
    forall i, j :: 0 <= i < j < |ds| ==> End(ds[i], open, close) <= ds[j].at
  }

  /** A delimiter that ends before all of an ordered list keeps it ordered. */
  lemma InOrderCons(e: Delimiter, rest: seq<Delimiter>, open: string, close: string)
    requires InOrder(rest, open, close)
    requires forall k :: 0 <= k < |rest| ==> End(e, open, close) <= rest[k].at
    ensures InOrder([e] + rest, open, close)
  {
    var ds := [e] + rest;
    forall i, j | 0 <= i < j < |ds|
      ensures End(ds[i], open, close) <= ds[j].at
    {
      assert ds[j] == rest[j - 1];
      if i > 0 {
        assert ds[i] == rest[i - 1];
      }
    }
  }

  /** The matches of the alternation never overlap. */
  lemma {:induction false} DelimitersInOrder(w: string, open: string, close: string, pos: nat)
    requires 0 < |open| && 0 < |close| && pos <= |w|
    ensures InOrder(Delimiters(w, open, close, pos), open, close)
    decreases |w| - pos
  {
    if pos < |w| {
      if OccursAt(w, open, pos) || OccursAt(w, close, pos) {
        var e := if OccursAt(w, open, pos) then Open(pos) else Close(pos);
        var rest := Delimiters(w, open, close, End(e, open, close));
        DelimitersStep(w, open, close, pos, e);
        DelimitersInOrder(w, open, close, End(e, open, close));
        InOrderCons(e, rest, open, close);
      } else {
        assert Delimiters(w, open, close, pos) == Delimiters(w, open, close, pos + 1);
        DelimitersInOrder(w, open, close, pos + 1);
      }
    }
  }

  /** What one delimiter does to the depth counter. */
  function Step(d: Delimiter): int {
    if d.Open? then 1 else -1
  }

  /** Opening delimiters minus closing delimiters. */
  function Depth(ds: seq<Delimiter>): int {
    if |ds| == 0 then 0 else Step(ds[0]) + Depth(ds[1..])
  }

  /** Extending a list by one delimiter moves its depth by exactly one. */
  lemma {:induction false} DepthSnoc(ds: seq<Delimiter>, d: Delimiter)
    ensures Depth(ds + [d]) == Depth(ds) + Step(d)
  {
    if |ds| > 0 {
      assert (ds + [d])[1..] == ds[1..] + [d];
      DepthSnoc(ds[1..], d);
    }
  }

  /** The depth of the prefixes grows or shrinks one delimiter at a time. */
  lemma DepthStep(ds: seq<Delimiter>, j: nat)
    requires j < |ds|
    ensures Depth(ds[..j + 1]) == Depth(ds[..j]) + Step(ds[j])
  {
    assert ds[..j + 1] == ds[..j] + [ds[j]];
    DepthSnoc(ds[..j], ds[j]);
  }

  /** Prepending a delimiter shifts the depth of every prefix by one. */
  lemma DepthCons(d: Delimiter, ds: seq<Delimiter>, j: nat)
    requires j <= |ds|
    ensures Depth(([d] + ds)[..j + 1]) == Step(d) + Depth(ds[..j])
  {
    assert ([d] + ds)[..j + 1][1..] == ds[..j];
  }

  /** `k` is the shortest non-empty prefix of `ds` that brings the depth,
      starting from `d`, back to zero. */
  predicate FirstBalance(ds: seq<Delimiter>, d: int, k: int) {
    && 1 <= k <= |ds|
    && d + Depth(ds[..k]) == 0
    && forall j :: 1 <= j < k ==> d + Depth(ds[..j]) != 0
  }

  /** No non-empty prefix of `ds` brings the depth, starting from `d`, back to zero. */
  predicate NeverBalanced(ds: seq<Delimiter>, d: int) {
    forall j :: 1 <= j <= |ds| ==> d + Depth(ds[..j]) != 0
  }

  /** Every prefix of `[e] + ds` after the first is `e` followed by a prefix of `ds`. */
  lemma PrefixDepths(e: Delimiter, ds: seq<Delimiter>)
    ensures forall j :: 0 <= j <= |ds| ==> Depth(([e] + ds)[..j + 1]) == Step(e) + Depth(ds[..j])
    ensures Depth([e] + ds) == Step(e) + Depth(ds)
  {
    forall j | 0 <= j <= |ds|
      ensures Depth(([e] + ds)[..j + 1]) == Step(e) + Depth(ds[..j])
    {
      DepthCons(e, ds, j);
    }
    assert ([e] + ds)[..|ds| + 1] == [e] + ds;
    assert ds[..|ds|] == ds;
  }

  /** Counting from `d`, a list that starts with delimiter `e` balances one
      delimiter later than its tail does counting from `d + Step(e)`, as long
      as `e` itself does not already balance it. */
  lemma BalanceCons(e: Delimiter, ds: seq<Delimiter>, d: int, k: int)
    requires d + Step(e) != 0 && FirstBalance(ds, d + Step(e), k)
    ensures FirstBalance([e] + ds, d, k + 1)
  {
    PrefixDepths(e, ds);
    assert ([e] + ds)[..1] == [e];
    forall j | 1 <= j < k + 1
      ensures d + Depth(([e] + ds)[..j]) != 0
    {
      if j > 1 {
        assert d + Depth(([e] + ds)[..(j - 1) + 1]) == d + Step(e) + Depth(ds[..j - 1]);
      }
    }
  }

  /** ... and never balances when its tail never does. */
  lemma NeverBalancedCons(e: Delimiter, ds: seq<Delimiter>, d: int)
    requires d + Step(e) != 0 && NeverBalanced(ds, d + Step(e))
    ensures NeverBalanced([e] + ds, d)
  {
    PrefixDepths(e, ds);
    assert ([e] + ds)[..1] == [e];
    forall j | 1 <= j <= |ds| + 1
      ensures d + Depth(([e] + ds)[..j]) != 0
    {
      if j > 1 {
        assert d + Depth(([e] + ds)[..(j - 1) + 1]) == d + Step(e) + Depth(ds[..j - 1]);
      }
    }
  }

  /** Counting from zero over a list that starts with an opening delimiter,
      the depth stays positive until it first balances. */
  lemma {:induction false} PositiveUntilBalance(ds: seq<Delimiter>, k: int, j: nat)
    requires |ds| > 0 && ds[0].Open? && FirstBalance(ds, 0, k) && 1 <= j < k
    ensures Depth(ds[..j]) > 0
    decreases j
  {
    if j == 1 {
      assert ds[..1] == [ds[0]];
    } else {
      PositiveUntilBalance(ds, k, j - 1);
      DepthStep(ds, j - 1);
    }
  }

  /** A list that starts with an opening delimiter first balances on a
      closing one, after at least two delimiters. */
  lemma FirstBalanceEndsWithClose(ds: seq<Delimiter>, k: int)
    requires |ds| > 0 && ds[0].Open? && FirstBalance(ds, 0, k)
    ensures 2 <= k && ds[k - 1].Close?
  {
    assert ds[..1] == [ds[0]];
    assert Depth(ds[..1]) == 1;
    PositiveUntilBalance(ds, k, k - 1);
    DepthStep(ds, k - 1);
  }

  /** Where the open delimiter matches at `pos`, the list starts with it. */
  lemma DelimitersStartWithOpen(w: string, open: string, close: string, pos: nat)
    requires 0 < |open| && 0 < |close| && pos < |w| && OccursAt(w, open, pos)
    ensures |Delimiters(w, open, close, pos)| > 0 && Delimiters(w, open, close, pos)[0] == Open(pos)
  {
    DelimitersStep(w, open, close, pos, Open(pos));
  }

  /** The text holds a `<` with a `>` somewhere after it, i.e. a match of
      `<[^>]*>` (the first `>` after the `<` ends the match). */
  predicate HasTag(s: string) {
    exists i, j :: 0 <= i < j < |s| && s[i] == '<' && s[j] == '>'
  }

  /** `Regex.Replace(s, "<[^>]*>", "")`: scanning left to right, a `<` that
      has a `>` after it is deleted together with everything up to and
      including the first such `>`; every other character is kept. */
  function RemoveTags(s: string): (r: string)
    ensures !HasTag(r)
    ensures |r| <= |s|
    ensures forall k :: 0 <= k < |r| ==> r[k] in s
  {
    if |s| == 0 then ""
    else if s[0] == '<' && '>' in s[1..] then
      var close := IndexOfChar(s[1..], '>') + 1;
      var r := RemoveTags(s[close + 1..]);
      assert forall k :: 0 <= k < |r| ==> r[k] in s[close + 1..];
      r
    else
      var t := RemoveTags(s[1..]);
      var r := [s[0]] + t;
      assert forall k :: 0 <= k < |t| ==> t[k] in s[1..];
      assert s[0] == '<' ==> '>' !in t;
      assert forall j :: 0 < j < |r| ==> r[j] == t[j - 1];
      r
  }

  /** Without a tag, the text after the first character has no tag either,
      and the first character does not start one. */
  lemma PlainTail(s: string)
    requires |s| > 0 && !HasTag(s)
    ensures !HasTag(s[1..])
    ensures !(s[0] == '<' && '>' in s[1..])
  {
    var t := s[1..];
    forall i, j | 0 <= i < j < |t| && t[i] == '<'
      ensures t[j] != '>'
    {
      assert s[i + 1] == '<' && s[j + 1] == t[j];
    }
  }

  /** A first character that does not start a tag is kept. */
  lemma RemoveTagsKeepsFirst(s: string)
    requires |s| > 0 && !(s[0] == '<' && '>' in s[1..])
    ensures RemoveTags(s) == [s[0]] + RemoveTags(s[1..])
  {
  }

  /** Text with no tag left in it passes through unchanged. */
  lemma {:induction false} RemoveTagsKeepsPlainText(s: string)
    requires !HasTag(s)
    ensures RemoveTags(s) == s
  {
    if |s| > 0 {
      PlainTail(s);
      RemoveTagsKeepsFirst(s);
      RemoveTagsKeepsPlainText(s[1..]);
      assert s == [s[0]] + s[1..];
    }
  }

  /** Characters before the first `<` are all kept. */
  lemma {:induction false} RemoveTagsKeepsPrefix(p: string, t: string)
    requires '<' !in p
    ensures RemoveTags(p + t) == p + RemoveTags(t)
  {
    if |p| > 0 {
      var s := p + t;
      assert s[0] == p[0] && s[1..] == p[1..] + t;
      RemoveTagsKeepsFirst(s);
      RemoveTagsKeepsPrefix(p[1..], t);
      assert p == [p[0]] + p[1..];
    } else {
      assert p + t == t;
    }
  }

  /** A `<` and the text up to and including the first `>` after it are
      deleted together. */
  lemma RemoveTagsDropsTag(x: string, t: string)
    requires '>' !in x
    ensures RemoveTags("<" + x + ">" + t) == RemoveTags(t)
  {
    var s := "<" + x + ">" + t;
    var rest := s[1..];
    assert rest == x + ">" + t;
    assert rest[|x|] == '>';
    IndexOfCharFromAt(rest, '>', 0, |x|);
    assert s[|x| + 2..] == t;
  }

  /** `<[^>]*>` deletes exactly one tag: the text before the first `<` is
      kept, the tag up to its first `>` is deleted, and the removal goes on
      after it. */
  lemma RemoveTagsAround(p: string, x: string, t: string)
    requires '<' !in p && '>' !in x
    ensures RemoveTags(p + "<" + x + ">" + t) == p + RemoveTags(t)
  {
    assert p + "<" + x + ">" + t == p + ("<" + x + ">" + t);
    RemoveTagsKeepsPrefix(p, "<" + x + ">" + t);
    RemoveTagsDropsTag(x, t);
  }

  /** Removing the tags twice is removing them once. */
  lemma RemoveTagsIdempotent(s: string)
    ensures RemoveTags(RemoveTags(s)) == RemoveTags(s)
  {
    RemoveTagsKeepsPlainText(RemoveTags(s));
  }
}

=== FILE: query.dfy ===
/**
  The public members of HTMLQuery/Query.cs. `Select` turns a selector into a
  literal search text, finds its anchors and resolves one element per
  anchor; `Value` and `Inner` read an attribute value and the inner markup
  of an element; `StripHtml` removes the tags.
 */
module HtmlQuery {
  import opened Results
  import opened Strings
  import opened Patterns
  import opened Spans
  import Extensions

  // ---------------------------------------------------------------------
  // Select
  // ---------------------------------------------------------------------

  /** The literal text `Select` searches for, for every selector except `#id`:
      `[name]value` becomes `name="value"`, `.c` becomes `c`, and any other
      selector `s` becomes `<s`. */
  function SearchText(selector: string): (r: Result<string>)
    requires |selector| > 0 && selector[0] != '#'
    ensures selector[0] == '.' ==> r == Success(selector[1..])
    ensures selector[0] == '[' ==> (r.Success? <==> ']' in selector)
    ensures selector[0] == '[' && r.Failure? ==> r.error == ArgumentOutOfRange
    ensures selector[0] == '[' && r.Success? ==>
      exists name, value :: selector == "[" + name + "]" + value && ']' !in name && r.value == name + "=\"" + value + "\""
    ensures selector[0] != '.' && selector[0] != '[' ==> r == Success("<" + selector)
  {
    match selector[0]
    case '.' => Success(selector[1..])
    case '[' =>
      var close := IndexOfChar(selector, ']');
      if close - 1 < 0 then Failure(ArgumentOutOfRange)
      else
        var name := selector[1..close];
        var value := selector[close + 1..];
        assert selector == "[" + name + "]" + value;
        Success(name + "=\"" + value + "\"")
    case _ => Success("<" + selector)
  }

  /** `s` is the last `<` before `anchor`. */
  predicate LastOpenBefore(source: string, anchor: int, s: int) {
    LastBefore(source, '<', s, anchor)
  }

  /** One turn of the `Select` loop: `Source.Substring(start, FindEndTag(start))`
      with `start` from `FindStartTag(anchor)`, i.e. the `FindEndTag` characters
      from the start tag on. */
  function ElementAt(source: string, anchor: int): (r: Result<string>)
    // an element is found exactly when a start position is found and
    // `FindEndTag` measures an element there
    ensures r.Success? <==>
      && FindStartTag(source, anchor).Success?
      && 0 <= FindStartTag(source, anchor).value
      && FindEndTag(source, FindStartTag(source, anchor).value).Success?
    // otherwise the exception of the failing step propagates
    ensures FindStartTag(source, anchor).Failure? ==> r == Failure(FindStartTag(source, anchor).error)
    ensures FindStartTag(source, anchor).Success? && FindEndTag(source, FindStartTag(source, anchor).value).Failure? ==>
      r == Failure(FindEndTag(source, FindStartTag(source, anchor).value).error)
    ensures r.Success? ==>
      && FindStartTag(source, anchor).Success?
      && (var s := FindStartTag(source, anchor).value;
      && 0 <= s && s + |r.value| <= |source|
      && r.value == source[s..s + |r.value|])
  {
    var found := FindStartTag(source, anchor);
    if found.Failure? then Failure(found.error)
    else
      var end := FindEndTag(source, found.value);
      if end.Failure? then Failure(end.error)
      else
        Success(source[found.value..found.value + end.value])
  }

  /** An element found from an anchor starts at the last `<` before it and
      is as long as `FindEndTag` says. */
  lemma ElementAtStartsAtLastOpen(source: string, anchor: int)
    requires ElementAt(source, anchor).Success?
    ensures 0 < |ElementAt(source, anchor).value| && ElementAt(source, anchor).value[0] == '<'
    ensures LastOpenBefore(source, anchor, FindStartTag(source, anchor).value)
    ensures FindEndTag(source, FindStartTag(source, anchor).value) == Success(|ElementAt(source, anchor).value|)
  {
  }

  /** An anchor outside the text, or with no `<` before it, cannot be
      resolved: `Substring` rejects the position or the start of -1. */
  lemma ElementAtNoOpen(source: string, anchor: int)
    ensures anchor < 0 || |source| < anchor ==> ElementAt(source, anchor) == Failure(ArgumentOutOfRange)
    ensures 0 <= anchor <= |source| && Absent(source, '<', 0, anchor) ==> ElementAt(source, anchor) == Failure(ArgumentOutOfRange)
  {
  }

  /** Running the loop body over a list of outcomes: every element wrapped in
      a new query, in order, unless an outcome is an exception, in which case
      the first one is rethrown. */
  function Collect(rs: seq<Result<string>>): (r: Result<seq<Query>>)
    ensures r.Success? <==> forall j :: 0 <= j < |rs| ==> rs[j].Success?
    ensures r.Success? ==> |r.value| == |rs| && forall j :: 0 <= j < |rs| ==> r.value[j] == New(rs[j].value)
    ensures r.Failure? ==> exists j :: 0 <= j < |rs| && rs[j] == Failure(r.error) && forall i :: 0 <= i < j ==> rs[i].Success?
  {
    if |rs| == 0 then Success([])
    else if rs[0].Failure? then Failure(rs[0].error)
    else
      var rest := Collect(rs[1..]);
      if rest.Failure? then
        var j :| 0 <= j < |rs[1..]| && rs[1..][j] == Failure(rest.error) && forall i :: 0 <= i < j ==> rs[1..][i].Success?;
        assert rs[j + 1] == Failure(rest.error);
        Failure(rest.error)
      else
        Success([New(rs[0].value)] + rest.value)
  }

  /** The loop of `Select` over the anchors: one element per anchor, in
      anchor order; the first anchor that cannot be resolved aborts it. */
  function SelectAll(source: string, anchors: seq<int>): (r: Result<seq<Query>>)
    ensures r.Success? <==> forall j :: 0 <= j < |anchors| ==> ElementAt(source, anchors[j]).Success?
    ensures r.Success? ==> |r.value| == |anchors|
    ensures r.Success? ==> forall j :: 0 <= j < |anchors| ==> r.value[j] == New(ElementAt(source, anchors[j]).value)
    ensures r.Failure? ==> exists j :: (0 <= j < |anchors| && ElementAt(source, anchors[j]) == Failure(r.error) &&
      forall i :: 0 <= i < j ==> ElementAt(source, anchors[i]).Success?)
  {
    Collect(Outcomes(source, anchors))
  }

  /** The outcome of the loop body for each anchor. */
  function Outcomes(source: string, anchors: seq<int>): (rs: seq<Result<string>>)
    ensures |rs| == |anchors| && forall j :: 0 <= j < |anchors| ==> rs[j] == ElementAt(source, anchors[j])
  {
    seq(|anchors|, j requires 0 <= j < |anchors| => ElementAt(source, anchors[j]))
  }

  /** `found` holds one element per anchor, in anchor order. */
  predicate SelectsFrom(source: string, anchors: seq<int>, found: seq<Query>) {
    && |found| == |anchors|
    && forall j :: 0 <= j < |anchors| ==> ElementAt(source, anchors[j]).Success? && found[j] == New(ElementAt(source, anchors[j]).value)
  }

  /** `Select(selector)`. An `#id` selector runs `Select("[id]" + id)` and
      throws whatever that throws; when it succeeds its result is discarded
      and the loop reads the still-null `indices`. */
  function Select(q: Query, selector: string): (r: Result<seq<Query>>)
    ensures |selector| == 0 ==> r == Failure(IndexOutOfRange)
    // `#` selectors never succeed
    ensures |selector| > 0 && selector[0] == '#' ==> r.Failure?
    ensures |selector| > 0 && selector[0] == '#' && Select(q, "[id]" + selector[1..]).Success? ==> r == Failure(NullIndices)
    // and the exception of the `[id]` search is rethrown
    ensures |selector| > 0 && selector[0] == '#' && Select(q, "[id]" + selector[1..]).Failure? ==>
      r == Select(q, "[id]" + selector[1..])
    // a selector whose search text cannot be built or does not occur throws
    ensures |selector| > 0 && selector[0] != '#' && SearchText(selector).Failure? ==> r == Failure(SearchText(selector).error)
    ensures (|selector| > 0 && selector[0] != '#' && SearchText(selector).Success? &&
      GetSplitIndices(q.source, SearchText(selector).value).Failure?) ==>
      r == Failure(GetSplitIndices(q.source, SearchText(selector).value).error)
    // otherwise: one element per anchor of the search text, in anchor
    // order, unless resolving an anchor throws
    ensures (|selector| > 0 && selector[0] != '#' && SearchText(selector).Success? &&
      GetSplitIndices(q.source, SearchText(selector).value).Success?) ==>
      r == SelectAll(q.source, GetSplitIndices(q.source, SearchText(selector).value).value)
    ensures r.Success? ==>
      && |selector| > 0 && selector[0] != '#'
      && SearchText(selector).Success?
      && GetSplitIndices(q.source, SearchText(selector).value).Success?
      && SelectsFrom(q.source, GetSplitIndices(q.source, SearchText(selector).value).value, r.value)
    decreases if |selector| > 0 && selector[0] == '#' then 1 else 0
  {
    if |selector| == 0 then Failure(IndexOutOfRange)
    else if selector[0] == '#' then
      var discarded :- Select(q, "[id]" + selector[1..]);
      Failure(NullIndices)
    else
      var text :- SearchText(selector);
      var anchors :- GetSplitIndices(q.source, text);
      SelectAll(q.source, anchors)
  }

  /** An occurrence at the very start of the text leaves an empty first
      piece, which the split drops: `<b>a</b>` has one `<b`, yet `Select`
      finds no `b` element in it. */
  lemma SelectDropsLeadingOccurrence()
    ensures Select(Query("<b>a</b>"), "b") == Success([])
  {
    var s := "<b>a</b>";
    assert "<" + "b" == "<b";
    assert SearchText("b") == Success("<b");
    assert OccursAt(s, "<b", 0);
    assert IndexOfFrom(s, "<b", 0) == 0;
    // no `<b` after the first one: `</b>` starts with `</`
    assert IndexOfFrom(s, "<b", 7) == -1;
    assert s[6..8][0] == 'b' && IndexOfFrom(s, "<b", 6) == -1;
    assert s[5..7][0] == '/' && IndexOfFrom(s, "<b", 5) == -1;
    assert s[4..6][1] == '/' && IndexOfFrom(s, "<b", 4) == -1;
    assert s[3..5][0] == 'a' && IndexOfFrom(s, "<b", 3) == -1;
    assert s[2..4][0] == '>' && IndexOfFrom(s, "<b", 2) == -1;
    assert Pieces(s, "<b", 0) == ["", s[2..]];
    assert RemoveEmpty(["", s[2..]]) == [s[2..]];
    assert GetSplitIndices(s, "<b") == Success([]);
  }

  /** Every element `Select` returns begins with its start tag's `<`. */
  lemma {:induction false} SelectReturnsElements(q: Query, selector: string)
    requires Select(q, selector).Success?
    ensures forall j :: 0 <= j < |Select(q, selector).value| ==>
      0 < |Select(q, selector).value[j].source| && Select(q, selector).value[j].source[0] == '<'
  {
    var anchors := GetSplitIndices(q.source, SearchText(selector).value).value;
    var found := Select(q, selector).value;
    forall j | 0 <= j < |found|
      ensures 0 < |found[j].source| && found[j].source[0] == '<'
    {
      ElementAtStartsAtLastOpen(q.source, anchors[j]);
    }
  }

  // ---------------------------------------------------------------------
  // Value, Inner, StripHtml
  // ---------------------------------------------------------------------

  /** Where `Value(property)` starts reading: just after the first
      `property="`, or, when there is none, at `IndexOf` = -1 plus the
      length of `property="`. */
  predicate ValueStart(source: string, property: string, a: int) {
    var name := property + "=\"";
    if Contains(source, name) then
      a >= |name| && OccursAt(source, name, a - |name|) && forall i :: 0 <= i < a - |name| ==> !OccursAt(source, name, i)
    else a == |name| - 1
  }

  /** `Source.IndexOf(property + "=\"") + (property + "=\"").Length` */
  function ValueOffset(source: string, property: string): (a: int)
    ensures ValueStart(source, property, a)
  {
    IndexOfString(source, property + "=\"") + |property| + 2
  }

  /** The start position is determined by the text and the property. */
  lemma ValueStartUnique(source: string, property: string, a: int, b: int)
    requires ValueStart(source, property, a) && ValueStart(source, property, b)
    ensures a == b
  {
  }

  /** `Value(property)`: the text from just after the first `property="` up
      to the next `"`. */
  function Value(q: Query, property: string): (r: Result<Query>)
    ensures |q.source| == 0 ==> r == Failure(IndexOutOfRange)
    ensures 0 < |q.source| && q.source[0] != '<' ==> r == Failure(NotAnElement)
    // reading past the end, or finding no closing quote, throws
    ensures 0 < |q.source| && q.source[0] == '<' ==>
      (r.Failure? <==>
        |q.source| < ValueOffset(q.source, property) || Absent(q.source, '"', ValueOffset(q.source, property), |q.source|))
    ensures 0 < |q.source| && q.source[0] == '<' && r.Failure? ==> r.error == ArgumentOutOfRange
    // otherwise the value is everything up to the first quote after the start
    ensures r.Success? ==> 0 <= ValueOffset(q.source, property)
    ensures r.Success? ==> ValueOffset(q.source, property) + |r.value.source| < |q.source|
    ensures r.Success? ==> q.source[ValueOffset(q.source, property) + |r.value.source|] == '"'
    ensures r.Success? ==> Absent(q.source, '"', ValueOffset(q.source, property), ValueOffset(q.source, property) + |r.value.source|)
    ensures r.Success? ==>
      r.value == New(q.source[ValueOffset(q.source, property)..ValueOffset(q.source, property) + |r.value.source|])
    ensures r.Success? ==> '"' !in r.value.source
  {
    if |q.source| == 0 then Failure(IndexOutOfRange)
    else if q.source[0] != '<' then Failure(NotAnElement)
    else
      var from := ValueOffset(q.source, property);
      if |q.source| < from then Failure(ArgumentOutOfRange)
      else
        // `start.IndexOf("\"")` on the rest of the text, and `Remove` at it
        var e := IndexOfCharFrom(q.source, '"', from);
        if e < 0 then Failure(ArgumentOutOfRange) else Success(New(q.source[from..e]))
  }

  /** A first occurrence inside a prefix is a first occurrence in the whole
      text. */
  lemma FirstInPrefix(s: string, pre: string, p: string, at: nat)
    requires |pre| <= |s| && s[..|pre|] == pre
    requires at + |p| == |pre| && pre[at..] == p
    requires forall i :: 0 <= i < at ==> !OccursAt(pre, p, i)
    ensures OccursAt(s, p, at) && forall i :: 0 <= i < at ==> !OccursAt(s, p, i)
  {
    forall i | 0 <= i < at
      ensures !OccursAt(s, p, i)
    {
      assert s[..|pre|][i..i + |p|] == s[i..i + |p|];
      assert !OccursAt(pre, p, i);
    }
    assert s[at..at + |p|] == pre[at..];
  }

  /** A quote-free value followed by a quote: the first quote from its
      start ends it. */
  lemma QuoteEnds(s: string, a: nat, value: string, tail: string)
    requires a <= |s| && s[a..] == value + "\"" + tail && '"' !in value
    ensures a + |value| < |s| && s[a + |value|] == '"' && Absent(s, '"', a, a + |value|)
    ensures s[a..a + |value|] == value
  {
    Halves(s[a..], value, "\"" + tail);
    assert s[a..][|value|] == '"';
    assert forall j :: a <= j < a + |value| ==> s[j] == s[a..][j - a] == value[j - a];
  }

  /** A value that starts where `Value` starts reading and ends at a quote
      is what `Value` returns. */
  lemma ValueAt(source: string, property: string, a: int, value: string)
    requires 0 < |source| && source[0] == '<' && ValueStart(source, property, a)
    requires 0 <= a && a + |value| < |source| && source[a + |value|] == '"' && Absent(source, '"', a, a + |value|)
    requires source[a..a + |value|] == value
    ensures Value(Query(source), property) == Success(New(value))
  {
    ValueStartUnique(source, property, a, ValueOffset(source, property));
    IndexOfCharFromAt(source, '"', a, a + |value|);
  }

  /** The attribute text, grouped as the part up to the opening quote and
      the part after it. */
  lemma AttributeText(head: string, property: string, value: string, tail: string)
    ensures "<" + head + property + "=\"" + value + "\"" + tail ==
      ("<" + head + (property + "=\"")) + (value + "\"" + tail)
    ensures "<" + head + property + "=\"" == "<" + head + (property + "=\"")
  {
  }

  /** Where `Value` starts reading in `pre + post`, when `pre` ends with the
      first `property="`. */
  lemma ValueStartAfterPrefix(source: string, pre: string, post: string, lt: string, property: string)
    requires source == pre + post && pre == lt + (property + "=\"")
    requires forall i :: 0 <= i < |lt| ==> !OccursAt(pre, property + "=\"", i)
    ensures |pre| <= |source| && source[|pre|..] == post
    ensures ValueStart(source, property, |pre|)
  {
    var name := property + "=\"";
    Halves(source, pre, post);
    Halves(pre, lt, name);
    FirstInPrefix(source, pre, name, |lt|);
  }

  /** Reading back an attribute: in an element whose first `property="` is
      followed by a quote-free value and a closing `"`, `Value` returns that
      value. */
  lemma ValueOfAttribute(head: string, property: string, value: string, tail: string)
    requires '"' !in value
    requires forall i :: 0 <= i < |"<" + head| ==> !OccursAt("<" + head + property + "=\"", property + "=\"", i)
    ensures Value(Query("<" + head + property + "=\"" + value + "\"" + tail), property) == Success(New(value))
  {
    AttributeText(head, property, value, tail);
    var pre := "<" + head + (property + "=\"");
    var post := value + "\"" + tail;
    var source := pre + post;
    ValueStartAfterPrefix(source, pre, post, "<" + head, property);
    QuoteEnds(source, |pre|, value, tail);
    assert source[0] == '<';
    ValueAt(source, property, |pre|, value);
  }

  /** The positions of the parts of `<tag>body</tag>`. */
  lemma ElementParts(source: string, tag: string, body: string)
    requires source == "<" + tag + ">" + body + "</" + tag + ">"
    ensures |source| == |tag| + |body| + |tag| + 5
    ensures source[0] == '<' && source[1..1 + |tag|] == tag && source[1 + |tag|] == '>'
    ensures source[2 + |tag|..2 + |tag| + |body|] == body
  {
    var open := "<" + tag + ">";
    Halves(source, open, body + "</" + tag + ">");
    Halves(open, "<" + tag, ">");
    Halves("<" + tag, "<", tag);
    Halves(body + "</" + tag + ">", body, "</" + tag + ">");
  }

  /** An element whose tag name runs from position 1 to the first `>` and
      whose body ends where the room for `</tag>` starts: `Inner` returns the
      body. */
  lemma InnerAt(source: string, tag: string, body: string)
    requires |source| == |tag| + |body| + |tag| + 5
    requires source[0] == '<' && source[1..1 + |tag|] == tag && source[1 + |tag|] == '>'
    requires ' ' !in tag && '>' !in tag
    requires 0 < |tag| ==> !IsWhiteSpace(tag[0])
    requires source[2 + |tag|..2 + |tag| + |body|] == body
    ensures Inner(Query(source)) == Success(New(body))
  {
    var e := 1 + |tag|;
    assert forall j :: 1 <= j < e ==> source[j] == tag[j - 1];
    assert source[1] == if 0 < |tag| then tag[0] else '>';
    assert SkipWhiteSpace(source, 1) == 1;
    IndexOfAnyFromAt(source, ' ', '>', 1, e);
    assert FindTagName(source, 0) == Success(tag);
    IndexOfCharFromAt(source, '>', 0, e);
    InnerOfSlice(source, tag, body);
  }

  /** `InnerOf` cuts exactly the body when it lies between the first `>`
      and the room for `</tag>`. */
  lemma InnerOfSlice(source: string, tag: string, body: string)
    requires Extensions.StartAfter(source, '>') + |body| == |source| - |tag| - 3
    requires source[Extensions.StartAfter(source, '>')..|source| - |tag| - 3] == body
    ensures InnerOf(source, tag) == Success(New(body))
  {
  }

  /** Reading back the inner markup: for an element written as
      `<tag>body</tag>`, with a tag name that does not start with white
      space and holds no space or `>`, `Inner` returns the body. */
  lemma InnerOfElement(tag: string, body: string)
    requires ' ' !in tag && '>' !in tag
    requires 0 < |tag| ==> !IsWhiteSpace(tag[0])
    ensures Inner(Query("<" + tag + ">" + body + "</" + tag + ">")) == Success(New(body))
  {
    var source := "<" + tag + ">" + body + "</" + tag + ">";
    ElementParts(source, tag, body);
    InnerAt(source, tag, body);
  }

  /** The slice `Inner` cuts once the tag name is known: from just after the
      first `>` to `|tag| + 3` characters (the room a `</tag>` takes) before
      the end; a negative length is not clamped but throws. */
  function InnerOf(source: string, tag: string): (r: Result<Query>)
    ensures r.Failure? <==> |source| - |tag| - 3 < Extensions.StartAfter(source, '>')
    ensures r.Failure? ==> r.error == ArgumentOutOfRange
    ensures r.Success? ==> r.value == New(source[Extensions.StartAfter(source, '>')..|source| - |tag| - 3])
  {
    var start := Extensions.StartAfter(source, '>');
    var length := |source| - start - |tag| - 3;
    if length < 0 then Failure(ArgumentOutOfRange)
    else Success(New(source[start..start + length]))
  }

  /** `Inner()`: the markup between the start tag and the end tag, for an
      element whose tag name `FindTagName(0)` can read. */
  function Inner(q: Query): (r: Result<Query>)
    ensures |q.source| == 0 ==> r == Failure(IndexOutOfRange)
    ensures 0 < |q.source| && q.source[0] != '<' ==> r == Failure(NotAnElement)
    ensures 0 < |q.source| && q.source[0] == '<' && FindTagName(q.source, 0).Failure? ==> r == Failure(ArgumentOutOfRange)
    ensures 0 < |q.source| && q.source[0] == '<' && FindTagName(q.source, 0).Success? ==>
      r == InnerOf(q.source, FindTagName(q.source, 0).value)
  {
    if |q.source| == 0 then Failure(IndexOutOfRange)
    else if q.source[0] != '<' then Failure(NotAnElement)
    else
      var tag :- FindTagName(q.source, 0);
      InnerOf(q.source, tag)
  }

  /** `StripHtml()`: the tag removal, then the entity decoding, which is a
      library routine and enters the model as the parameter `decode`. */
  function StripHtml(q: Query, decode: string -> string): (r: string)
    // the decoder is given exactly the output of the tag removal, which has
    // no tag left in it (see `RemoveTags`)
    ensures r == decode(RemoveTags(q.source))
    // tag-free text is only decoded
    ensures !HasTag(q.source) ==> r == decode(q.source)
  {
    var t := RemoveTags(q.source);
    assert !HasTag(q.source) ==> t == q.source by {
      if !HasTag(q.source) {
        RemoveTagsKeepsPlainText(q.source);
      }
    }
    decode(t)
  }
}

=== FILE: results.dfy ===
/**
  The failure side of the query engine. Every exception the C# code can throw
  on a non-null input is one variant of `Error`; an operation returns
  `Result<T>` instead of throwing.
 */
module Results {

  datatype Error =
    /** `s[0]` on an empty string, `split[0]` on an empty array */
    | IndexOutOfRange
    /** `Substring` or `Remove` given a negative length or a start past the end */
    | ArgumentOutOfRange
    /** `GetSplitIndices`: "No instances of <splitter> found" */
    | SplitterNotFound(splitter: string)
    /** `FindEndTag`: "The source must begin with a tag" */
    | NotATag
    /** `Value` and `Inner`: "Method may only be used on a Query containing an element" */
    | NotAnElement
    /** `FindEndTag`: "No matching end tag" */
    | NoMatchingEndTag
    /** `FindEndTag`: "No tag found" */
    | NoTagFound
    /** `Select`: `indices.Length` read while `indices` is still null */
    | NullIndices

  /** Success or failure; usable with `:-`. */
  datatype Result<+T> = Success(value: T) | Failure(error: Error) {

    predicate IsFailure() {
      Failure?
    }

    function PropagateFailure<U>(): Result<U>
      requires Failure?
    {
      Failure(error)
    }

    function Extract(): T
      requires Success?
    {
      value
    }
  }
}

=== FILE: root_extensions.dfy ===
/**
  Extensions.cs at the repository root: a second copy of `Delete` and
  `Between`, character for character the same code as in
  HTMLQuery/Extensions.cs. Both members therefore delegate to module
  `Extensions` and restate the promises of the copy here.
 */
module RootExtensions {
  import opened Results
  import opened Strings
  import Extensions

  /** `input.Delete()`: `input.Substring(1)`. */
  function Delete(input: string): (r: Result<string>)
    ensures r.Failure? <==> |input| == 0
    ensures r.Failure? ==> r.error == ArgumentOutOfRange
    ensures r.Success? ==> |r.value| == |input| - 1 && r.value == input[1..]
  {
    Extensions.Delete(input)
  }

  /** `input.Between(from, to)`: the slice after the first `from` (or from
      the start) up to the first `to`. */
  function Between(input: string, from: char, to: char): (r: Result<string>)
    ensures r.Failure? <==>
      to !in input || exists start, end :: Extensions.BetweenStart(input, from, start) && FirstAt(input, to, end) && end < start
    ensures r.Failure? ==> r.error == ArgumentOutOfRange
    ensures r.Success? ==> to !in r.value
    ensures forall start :: Extensions.BetweenStart(input, from, start) && r.Success? ==>
      FirstAt(input, to, start + |r.value|) && r.value == input[start..start + |r.value|]
  {
    Extensions.Between(input, from, to)
  }
}

=== FILE: spans.dfy ===
/**
  The private members of HTMLQuery/Query.cs that locate elements in the
  text: `GetSplitIndices` finds the anchor offsets of a search text,
  `FindStartTag` walks back from an anchor to the enclosing `<`,
  `FindTagName` reads the tag name there, and `FindEndTag` resolves the
  matching close tag by counting same-named open and close tags. Also the
  query value itself and the constructor's normalisation.
 */
module Spans {
  import opened Results
  import opened Strings
  import opened Patterns
  import Extensions

  /** A query value; `source` is the `Source` property. */
  datatype Query = Query(source: string)

  /** Text the constructor could have produced: no carriage return, no line feed. */
  predicate Normalised(s: string) {
    '\r' !in s && '\n' !in s
  }

  /** The constructor's `source.Replace('\r', ' ').Replace('\n', ' ')`. */
  function Normalise(raw: string): (s: string)
    ensures |s| == |raw| && Normalised(s)
    ensures forall i :: 0 <= i < |raw| && raw[i] != '\r' && raw[i] != '\n' ==> s[i] == raw[i]
    ensures forall i :: 0 <= i < |raw| && (raw[i] == '\r' || raw[i] == '\n') ==> s[i] == ' '
  {
    ReplaceChar(ReplaceChar(raw, '\r', ' '), '\n', ' ')
  }

  /** Normalised text is left as it is, so normalising twice is normalising once. */
  lemma NormaliseIdempotent(raw: string)
    ensures Normalise(Normalise(raw)) == Normalise(raw)
    ensures Normalised(raw) ==> Normalise(raw) == raw
  {
  }

  /** `new Query(raw)` */
  function New(raw: string): (q: Query)
    ensures |q.source| == |raw| && Normalised(q.source)
    // each carriage return or line feed becomes a space, every other character is kept
    ensures forall i :: 0 <= i < |raw| && raw[i] != '\r' && raw[i] != '\n' ==> q.source[i] == raw[i]
    ensures forall i :: 0 <= i < |raw| && (raw[i] == '\r' || raw[i] == '\n') ==> q.source[i] == ' '
    ensures Normalised(raw) ==> q.source == raw
  {
    Query(Normalise(raw))
  }

  // ---------------------------------------------------------------------
  // GetSplitIndices
  // ---------------------------------------------------------------------

  /** The loop of `GetSplitIndices`: before each piece after the first it
      records the running length plus one, then adds that piece's length and
      the splitter's length. */
  function Anchors(length: int, rest: seq<string>, sepLen: nat): (r: seq<int>)
    ensures |r| == |rest|
    decreases |rest|
  {
    if |rest| == 0 then []
    else [length + 1] + Anchors(length + |rest[0]| + sepLen, rest[1..], sepLen)
  }

  /** The offsets the loop records all lie past the running length it
      starts from, and strictly increase when no piece is empty. */
  lemma {:induction false} AnchorsIncrease(length: int, rest: seq<string>, sepLen: nat)
    ensures forall k :: 0 <= k < |rest| ==> length + 1 <= Anchors(length, rest, sepLen)[k]
    ensures (forall k :: 0 <= k < |rest| ==> |rest[k]| > 0) ==>
      forall i, j :: 0 <= i < j < |rest| ==> Anchors(length, rest, sepLen)[i] < Anchors(length, rest, sepLen)[j]
    decreases |rest|
  {
    if |rest| > 0 {
      var next := length + |rest[0]| + sepLen;
      var r, tail := Anchors(length, rest, sepLen), Anchors(next, rest[1..], sepLen);
      AnchorsIncrease(next, rest[1..], sepLen);
      assert r == [length + 1] + tail;
      assert forall k :: 0 < k < |r| ==> r[k] == tail[k - 1];
      assert r[0] == length + 1;
      if forall k :: 0 <= k < |rest| ==> |rest[k]| > 0 {
        assert |rest[0]| > 0;
        assert forall k :: 0 <= k < |rest[1..]| ==> |rest[1..][k]| > 0 by {
          forall k | 0 <= k < |rest[1..]| ensures |rest[1..][k]| > 0 {
            assert rest[1..][k] == rest[k + 1];
          }
        }
        forall i, j | 0 <= i < j < |r|
          ensures r[i] < r[j]
        {
          assert r[j] == tail[j - 1] && next + 1 <= tail[j - 1];
          if i > 0 {
            assert r[i] == tail[i - 1];
          }
        }
      }
    }
  }

  /** `Source.Split(new[] { splitter }, StringSplitOptions.RemoveEmptyEntries)`.
      An empty text splits into no pieces at all. Otherwise .NET skips empty
      separators, and with no separator left the whole text is the only
      piece. */
  function SplitRemovingEmpty(source: string, splitter: string): (r: seq<string>)
    ensures |source| == 0 ==> r == []
    ensures |splitter| == 0 && 0 < |source| ==> r == [source]
    ensures 0 < |splitter| ==> r == RemoveEmpty(Pieces(source, splitter, 0))
    ensures forall k :: 0 <= k < |r| ==> |r[k]| > 0
  {
    if |splitter| == 0 then (if |source| == 0 then [] else [source])
    else RemoveEmpty(Pieces(source, splitter, 0))
  }

  /** The split leaves no piece: the text is empty, or every piece between
      splitters is empty, so the text is made only of splitters. */
  predicate OnlySplitters(source: string, splitter: string) {
    || |source| == 0
    || (&& 0 < |splitter|
        && forall k :: 0 <= k < |Pieces(source, splitter, 0)| ==> |Pieces(source, splitter, 0)[k]| == 0)
  }

  /** The offsets recorded for a non-empty list of pieces whose pieces after
      the first are non-empty: one per piece after the first, positive and
      strictly increasing. */
  function PieceAnchors(split: seq<string>, sepLen: nat): (r: seq<int>)
    requires |split| > 0 && forall k :: 1 <= k < |split| ==> |split[k]| > 0
    ensures |r| == |split| - 1
    ensures forall k :: 0 <= k < |r| ==> 1 <= r[k]
    ensures forall i, j :: 0 <= i < j < |r| ==> r[i] < r[j]
  {
    assert forall k :: 0 <= k < |split[1..]| ==> |split[1..][k]| > 0;
    AnchorsIncrease(|split[0]|, split[1..], sepLen);
    Anchors(|split[0]|, split[1..], sepLen)
  }

  /** `GetSplitIndices(splitter)`: one anchor offset per piece after the first. */
  function GetSplitIndices(source: string, splitter: string): (r: Result<seq<int>>)
    // a splitter that does not occur throws instead of yielding no anchors
    ensures r == Failure(SplitterNotFound(splitter)) <==> !Contains(source, splitter)
    // a text made only of splitters leaves no piece, and `split[0]` throws
    ensures r == Failure(IndexOutOfRange) <==> Contains(source, splitter) && OnlySplitters(source, splitter)
    ensures r.Failure? ==> r.error == IndexOutOfRange || r.error == SplitterNotFound(splitter)
    // the offsets are positive and strictly increasing
    ensures r.Success? ==> forall k :: 0 <= k < |r.value| ==> 1 <= r.value[k]
    ensures r.Success? ==> forall i, j :: 0 <= i < j < |r.value| ==> r.value[i] < r.value[j]
    // the empty splitter occurs everywhere but cuts nothing; in an empty
    // text the split leaves no piece and `split[0]` throws
    ensures |splitter| == 0 && 0 < |source| ==> r == Success([])
    ensures |source| == 0 && |splitter| == 0 ==> r == Failure(IndexOutOfRange)
  {
    assert |splitter| == 0 ==> OccursAt(source, splitter, 0);
    if !Contains(source, splitter) then Failure(SplitterNotFound(splitter))
    else
      var split := SplitRemovingEmpty(source, splitter);
      if |split| == 0 then
        Failure(IndexOutOfRange)
      else
        assert !OnlySplitters(source, splitter) by {
          if 0 < |splitter| {
            assert split[0] in Pieces(source, splitter, 0);
          }
        }
        Success(PieceAnchors(split, |splitter|))
  }

  /** Occurrence positions `os` of a separator of length `sepLen`, in a text
      of length `n` read from `from` on, that leave a non-empty piece before,
      between and after them. */
  predicate SpacedAt(os: seq<nat>, sepLen: nat, from: nat, n: nat) {
    && (|os| == 0 ==> from < n)
    && (|os| > 0 ==> from < os[0] && os[|os| - 1] + sepLen < n)
    && forall k, l :: 0 <= k < l < |os| ==> os[k] + sepLen < os[l]
  }

  /** No two occurrences of the splitter from `from` on touch, the text does
      not start there with one and does not end with one: every piece of the
      split is non-empty, so `RemoveEmptyEntries` drops nothing. */
  predicate Spaced(s: string, sep: string, from: nat)
    requires 0 < |sep| && from <= |s|
  {
    SpacedAt(Occurrences(s, sep, from), |sep|, from, |s|)
  }

  /** The pieces `ps` and the occurrences `os` of a separator of length
      `sepLen` describe the same cut of a text of length `n` read from `from`
      on: each occurrence starts where the piece before it ends, the next
      piece starts where the occurrence ends, and the last piece runs to the
      end of the text. */
  predicate Consistent(ps: seq<string>, os: seq<nat>, from: int, sepLen: nat, n: int)
    decreases |os|
  {
    && |ps| == |os| + 1
    && if |os| == 0 then |ps[0]| == n - from
       else os[0] == from + |ps[0]| && Consistent(ps[1..], os[1..], os[0] + sepLen, sepLen, n)
  }

  /** The first cut of the split, for pieces and occurrences together. */
  lemma SplitNext(s: string, sep: string, from: nat) returns (i: int)
    requires 0 < |sep| && from <= |s|
    ensures i < 0 ==> Pieces(s, sep, from) == [s[from..]] && Occurrences(s, sep, from) == []
    ensures 0 <= i ==> from <= i && i + |sep| <= |s|
    ensures 0 <= i ==> Pieces(s, sep, from) == [s[from..i]] + Pieces(s, sep, i + |sep|)
    ensures 0 <= i ==> Occurrences(s, sep, from) == [i] + Occurrences(s, sep, i + |sep|)
  {
    i := IndexOfFrom(s, sep, from);
  }

  /** `Pieces` and `Occurrences` describe the same cut. */
  lemma {:induction false} SplitConsistent(s: string, sep: string, from: nat)
    requires 0 < |sep| && from <= |s|
    ensures Consistent(Pieces(s, sep, from), Occurrences(s, sep, from), from, |sep|, |s|)
    decreases |s| - from
  {
    var i := SplitNext(s, sep, from);
    if 0 <= i {
      var next := i + |sep|;
      SplitConsistent(s, sep, next);
      HeadTail(Pieces(s, sep, from), s[from..i], Pieces(s, sep, next));
      HeadTail(Occurrences(s, sep, from), i, Occurrences(s, sep, next));
    }
  }

  /** In a spaced cut every piece is non-empty. */
  lemma {:induction false} SpacedPieces(ps: seq<string>, os: seq<nat>, from: nat, sepLen: nat, n: nat)
    requires Consistent(ps, os, from, sepLen, n) && SpacedAt(os, sepLen, from, n)
    ensures forall k :: 0 <= k < |ps| ==> |ps[k]| > 0
    decreases |os|
  {
    if |os| > 0 {
      var rest, orest := ps[1..], os[1..];
      assert SpacedAt(orest, sepLen, os[0] + sepLen, n) by {
        forall k, l | 0 <= k < l < |orest|
          ensures orest[k] + sepLen < orest[l]
        {
          assert orest[k] == os[k + 1] && orest[l] == os[l + 1];
        }
        if |orest| > 0 {
          assert orest[0] == os[1] && orest[|orest| - 1] == os[|os| - 1];
        }
      }
      SpacedPieces(rest, orest, os[0] + sepLen, sepLen, n);
      assert forall k :: 0 < k < |ps| ==> ps[k] == rest[k - 1];
    }
  }

  /** The loop's running length: over a consistent cut, the offsets it
      records are the occurrences, shifted by `base - from + 1`. */
  lemma {:induction false} AnchorsAtOccurrences(ps: seq<string>, os: seq<nat>, from: int, sepLen: nat, n: int, base: int)
    requires Consistent(ps, os, from, sepLen, n)
    ensures var r := Anchors(base + |ps[0]|, ps[1..], sepLen);
      |r| == |os| && forall k :: 0 <= k < |os| ==> r[k] == os[k] - from + base + 1
    decreases |os|
  {
    if |os| > 0 {
      var nbase := base + |ps[0]| + sepLen;
      var r := Anchors(base + |ps[0]|, ps[1..], sepLen);
      var tail := Anchors(nbase + |ps[1..][0]|, ps[1..][1..], sepLen);
      AnchorsAtOccurrences(ps[1..], os[1..], os[0] + sepLen, sepLen, n, nbase);
      assert r == [base + |ps[0]| + 1] + tail;
      assert forall k :: 0 < k < |os| ==> r[k] == tail[k - 1] && os[k] == os[1..][k - 1];
    }
  }

  /** When no piece of the split is empty, `GetSplitIndices` runs its loop
      over all of them. */
  lemma GetSplitIndicesOfPieces(source: string, splitter: string, ps: seq<string>)
    requires 0 < |splitter| && Contains(source, splitter) && ps == Pieces(source, splitter, 0)
    requires forall k :: 0 <= k < |ps| ==> |ps[k]| > 0
    ensures GetSplitIndices(source, splitter) == Success(Anchors(|ps[0]|, ps[1..], |splitter|))
  {
    assert SplitRemovingEmpty(source, splitter) == ps;
  }

  /** Over a spaced cut read from 0, no piece is empty and the loop records
      each occurrence plus one. */
  lemma AnchorsOfSpaced(ps: seq<string>, os: seq<nat>, sepLen: nat, n: nat)
    requires Consistent(ps, os, 0, sepLen, n) && SpacedAt(os, sepLen, 0, n)
    ensures |ps| > 0 && forall k :: 0 <= k < |ps| ==> |ps[k]| > 0
    ensures |Anchors(|ps[0]|, ps[1..], sepLen)| == |os|
    ensures forall k :: 0 <= k < |os| ==> Anchors(|ps[0]|, ps[1..], sepLen)[k] == os[k] + 1
  {
    SpacedPieces(ps, os, 0, sepLen, n);
    AnchorsAtOccurrences(ps, os, 0, sepLen, n, 0);
  }

  /** When no occurrences of the splitter touch and the text neither starts
      nor ends with one, `GetSplitIndices` yields, for each occurrence in
      order, its start plus one. */
  lemma GetSplitIndicesAtOccurrences(source: string, splitter: string)
    requires 0 < |splitter| && Contains(source, splitter) && Spaced(source, splitter, 0)
    ensures GetSplitIndices(source, splitter).Success?
    ensures |GetSplitIndices(source, splitter).value| == |Occurrences(source, splitter, 0)|
    ensures forall k :: 0 <= k < |Occurrences(source, splitter, 0)| ==>
      GetSplitIndices(source, splitter).value[k] == Occurrences(source, splitter, 0)[k] + 1
  {
    var ps, os := Pieces(source, splitter, 0), Occurrences(source, splitter, 0);
    SplitConsistent(source, splitter, 0);
    AnchorsOfSpaced(ps, os, |splitter|, |source|);
    GetSplitIndicesOfPieces(source, splitter, ps);
  }

  // ---------------------------------------------------------------------
  // FindStartTag, FindTagName, FindEndTag
  // ---------------------------------------------------------------------

  /** `FindStartTag(anchor)`: `Source.Substring(0, anchor).LastIndexOf('<')`,
      the last `<` before the anchor, or -1. */
  function FindStartTag(source: string, anchor: int): (r: Result<int>)
    ensures r.Failure? <==> anchor < 0 || |source| < anchor
    ensures r.Failure? ==> r.error == ArgumentOutOfRange
    ensures r.Success? ==> -1 <= r.value < anchor
    ensures r.Success? && r.value == -1 ==> Absent(source, '<', 0, anchor)
    ensures r.Success? && 0 <= r.value ==> LastBefore(source, '<', r.value, anchor)
  {
    if anchor < 0 || |source| < anchor then Failure(ArgumentOutOfRange)
    else Success(LastIndexOfCharBefore(source, '<', anchor))
  }

  /** `FindTagName(start)`: skip the character at `start` and the white
      space after it, then read up to the first space or `>`. */
  function FindTagName(source: string, start: int): (r: Result<string>)
    ensures r.Failure? ==> r.error == ArgumentOutOfRange
    ensures r.Success? ==> 0 <= start < |source|
    // the name stops before a space or `>` and does not start with white space
    ensures r.Success? ==> ' ' !in r.value && '>' !in r.value
    ensures r.Success? && 0 < |r.value| ==> !IsWhiteSpace(r.value[0])
  {
    // `Substring(start)` throws past the end, `Delete` on the empty rest
    if start < 0 || |source| <= start then Failure(ArgumentOutOfRange)
    else
      var i := SkipWhiteSpace(source, start + 1);
      var e := IndexOfAnyFrom(source, ' ', '>', i);
      if e < 0 then Failure(ArgumentOutOfRange) else Success(source[i..e])
  }

  /** What `FindTagName` reads: past the `<` and the white space after it,
      the longest run of characters that are neither a space nor `>`, which
      must be followed by one of the two; without either it fails. */
  lemma FindTagNameReads(source: string, start: int)
    requires 0 <= start < |source|
    ensures FindTagName(source, start).Failure? <==>
      Absent(source, ' ', SkipWhiteSpace(source, start + 1), |source|) &&
      Absent(source, '>', SkipWhiteSpace(source, start + 1), |source|)
    ensures FindTagName(source, start).Success? ==>
      SkipWhiteSpace(source, start + 1) + |FindTagName(source, start).value| < |source|
    ensures FindTagName(source, start).Success? ==>
      FindTagName(source, start).value ==
        source[SkipWhiteSpace(source, start + 1)..SkipWhiteSpace(source, start + 1) + |FindTagName(source, start).value|]
    ensures FindTagName(source, start).Success? ==>
      source[SkipWhiteSpace(source, start + 1) + |FindTagName(source, start).value|] in " >"
  {
    var i := SkipWhiteSpace(source, start + 1);
    var e := IndexOfAnyFrom(source, ' ', '>', i);
    if 0 <= e {
      assert FindTagName(source, start) == Success(source[i..e]);
      assert !Absent(source, source[e], i, |source|);
    }
  }

  /** `FindTagName` as HTMLQuery/Query.cs writes it:
      `Source.Substring(start).Delete().TrimStart()`, then `Substring(0, k)`
      with `k` from `IndexOfAny(' ', '>')`. */
  function TagNameAsWritten(source: string, start: int): Result<string> {
    if start < 0 || |source| < start then Failure(ArgumentOutOfRange)
    else
      var rest :- Extensions.Delete(source[start..]);
      var clean := TrimStart(rest);
      var k := IndexOfAny(clean, ' ', '>');
      if k < 0 then Failure(ArgumentOutOfRange) else Success(clean[..k])
  }

  /** Skipping white space in a suffix is skipping it in the whole text. */
  lemma {:induction false} SkipWhiteSpaceShift(s: string, k: nat, j: nat)
    requires k + j <= |s|
    ensures SkipWhiteSpace(s[k..], j) + k == SkipWhiteSpace(s, k + j)
    decreases |s| - k - j
  {
    if k + j < |s| {
      assert s[k..][j] == s[k + j];
      if IsWhiteSpace(s[k + j]) {
        SkipWhiteSpaceShift(s, k, j + 1);
      }
    }
  }

  /** Searching a suffix is searching the whole text from where it starts. */
  lemma {:induction false} IndexOfAnyShift(s: string, a: char, b: char, k: nat, j: nat)
    requires k + j <= |s|
    ensures var r := IndexOfAnyFrom(s, a, b, k + j);
      IndexOfAnyFrom(s[k..], a, b, j) == if r < 0 then -1 else r - k
    decreases |s| - k - j
  {
    if k + j < |s| {
      assert s[k..][j] == s[k + j];
      if s[k + j] != a && s[k + j] != b {
        IndexOfAnyShift(s, a, b, k, j + 1);
      }
    }
  }

  /** `TrimStart` on a suffix starts where skipping white space stops. */
  lemma TrimStartSuffix(s: string, k: nat)
    requires k <= |s|
    ensures TrimStart(s[k..]) == s[SkipWhiteSpace(s, k)..]
  {
    SkipWhiteSpaceShift(s, k, 0);
    DropDrop(s, k, SkipWhiteSpace(s, k) - k);
  }

  /** `IndexOfAny` on a suffix is the scan from where it starts, shifted. */
  lemma IndexOfAnySuffix(s: string, a: char, b: char, k: nat)
    requires k <= |s|
    ensures var r := IndexOfAnyFrom(s, a, b, k);
      IndexOfAny(s[k..], a, b) == if r < 0 then -1 else r - k
  {
    IndexOfAnyShift(s, a, b, k, 0);
  }

  /** The scanner reads the same name as the string-library formulation,
      and fails on the same inputs. */
  lemma FindTagNameAsWritten(source: string, start: int)
    ensures FindTagName(source, start) == TagNameAsWritten(source, start)
  {
    if 0 <= start < |source| {
      var rest := source[start + 1..];
      DropDrop(source, start, 1);
      assert Extensions.Delete(source[start..]) == Success(rest);
      var i := SkipWhiteSpace(source, start + 1);
      TrimStartSuffix(source, start + 1);
      var clean := TrimStart(rest);
      var e := IndexOfAnyFrom(source, ' ', '>', i);
      IndexOfAnySuffix(source, ' ', '>', i);
      var k := IndexOfAny(clean, ' ', '>');
      assert clean == source[i..];
      assert k == if e < 0 then -1 else e - i;
      if 0 <= e {
        TakeOfSuffix(clean, source, i, e);
      }
      var name := if e < 0 then Failure(ArgumentOutOfRange) else Success(source[i..e]);
      assert FindTagName(source, start) == name;
      assert TagNameAsWritten(source, start) == if k < 0 then Failure(ArgumentOutOfRange) else Success(clean[..k]);
    } else if start == |source| {
      assert Extensions.Delete(source[start..]).Failure?;
    }
  }

  /** The balancing scan of `FindEndTag` over the split of `w` on `open`
      and `close`: an open delimiter increments the counter, a close
      delimiter decrements it, and the first time the counter is back at
      zero the length consumed so far is the answer. */
  function MatchEnd(w: string, open: string, close: string, pos: nat, opens: int): (r: Result<nat>)
    requires 0 < |open| && 0 < |close| && pos <= |w|
    ensures r.Success? ==> pos < r.value <= |w|
    ensures r.Failure? ==> r.error == NoMatchingEndTag || r.error == NoTagFound
    decreases |w| - pos
  {
    if pos == |w| then
      if opens > 0 then Failure(NoMatchingEndTag) else Failure(NoTagFound)
    else if OccursAt(w, open, pos) then
      if opens + 1 == 0 then Success(pos + |open|) else MatchEnd(w, open, close, pos + |open|, opens + 1)
    else if OccursAt(w, close, pos) then
      if opens - 1 == 0 then Success(pos + |close|) else MatchEnd(w, open, close, pos + |close|, opens - 1)
    else MatchEnd(w, open, close, pos + 1, opens)
  }

  /** The scan agrees with counting on the delimiter list from `pos` on: it
      succeeds at the end of the first delimiter where the depth, starting
      from `opens`, comes back to zero, and fails, by the sign of the final
      depth, when that never happens. */
  predicate ScanAgrees(w: string, open: string, close: string, pos: nat, opens: int)
    requires 0 < |open| && 0 < |close| && pos <= |w|
  {
    var ds := Delimiters(w, open, close, pos);
    var r := MatchEnd(w, open, close, pos, opens);
    && (r.Success? ==> exists k :: 1 <= k <= |ds| && FirstBalance(ds, opens, k) && r.value == End(ds[k - 1], open, close))
    && (r.Failure? ==> NeverBalanced(ds, opens))
    && (r.Failure? ==> (r.error == NoMatchingEndTag <==> opens + Depth(ds) > 0))
  }

  /** At the end of the text there is nothing left to balance. */
  lemma ScanAgreesAtEnd(w: string, open: string, close: string, opens: int)
    requires 0 < |open| && 0 < |close|
    ensures ScanAgrees(w, open, close, |w|, opens)
  {
    assert Delimiters(w, open, close, |w|) == [];
  }

  /** A position where neither delimiter starts changes nothing. */
  lemma ScanAgreesSkip(w: string, open: string, close: string, pos: nat, opens: int)
    requires 0 < |open| && 0 < |close| && pos < |w|
    requires !OccursAt(w, open, pos) && !OccursAt(w, close, pos)
    requires ScanAgrees(w, open, close, pos + 1, opens)
    ensures ScanAgrees(w, open, close, pos, opens)
  {
    var ds := Delimiters(w, open, close, pos);
    var r := MatchEnd(w, open, close, pos, opens);
    assert ds == Delimiters(w, open, close, pos + 1);
    assert r == MatchEnd(w, open, close, pos + 1, opens);
  }

  /** A delimiter that brings the depth to zero ends the scan right after it. */
  lemma ScanAgreesBalanced(w: string, open: string, close: string, pos: nat, opens: int, e: Delimiter)
    requires 0 < |open| && 0 < |close| && pos < |w|
    requires e == (if OccursAt(w, open, pos) then Open(pos) else Close(pos))
    requires OccursAt(w, open, pos) || OccursAt(w, close, pos)
    requires opens + Step(e) == 0
    ensures ScanAgrees(w, open, close, pos, opens)
  {
    var ds := Delimiters(w, open, close, pos);
    DelimitersStep(w, open, close, pos, e);
    assert ds[..1] == [e];
    assert MatchEnd(w, open, close, pos, opens) == Success(End(e, open, close));
    assert FirstBalance(ds, opens, 1);
  }

  /** Past a delimiter that does not balance, the scan resumes after it
      with the counter moved by one. */
  lemma MatchEndStep(w: string, open: string, close: string, pos: nat, opens: int, e: Delimiter)
    requires 0 < |open| && 0 < |close| && pos < |w|
    requires e == (if OccursAt(w, open, pos) then Open(pos) else Close(pos))
    requires OccursAt(w, open, pos) || OccursAt(w, close, pos)
    requires opens + Step(e) != 0
    ensures MatchEnd(w, open, close, pos, opens) == MatchEnd(w, open, close, End(e, open, close), opens + Step(e))
  {
  }

  /** Any other delimiter moves the counter and the scan goes on after it. */
  lemma ScanAgreesStep(w: string, open: string, close: string, pos: nat, opens: int, e: Delimiter)
    requires 0 < |open| && 0 < |close| && pos < |w|
    requires e == (if OccursAt(w, open, pos) then Open(pos) else Close(pos))
    requires OccursAt(w, open, pos) || OccursAt(w, close, pos)
    requires opens + Step(e) != 0
    requires ScanAgrees(w, open, close, End(e, open, close), opens + Step(e))
    ensures ScanAgrees(w, open, close, pos, opens)
  {
    var next := End(e, open, close);
    var ds := Delimiters(w, open, close, pos);
    var rest := Delimiters(w, open, close, next);
    var r := MatchEnd(w, open, close, pos, opens);
    DelimitersStep(w, open, close, pos, e);
    MatchEndStep(w, open, close, pos, opens, e);
    PrefixDepths(e, rest);
    if r.Success? {
      var k :| FirstBalance(rest, opens + Step(e), k) && r.value == End(rest[k - 1], open, close);
      BalanceCons(e, rest, opens, k);
      assert ds[k] == rest[k - 1];
    } else {
      NeverBalancedCons(e, rest, opens);
    }
  }

  /** The scan agrees with counting, from every position and counter value. */
  lemma {:induction false} MatchEndFirstBalance(w: string, open: string, close: string, pos: nat, opens: int)
    requires 0 < |open| && 0 < |close| && pos <= |w|
    ensures ScanAgrees(w, open, close, pos, opens)
    decreases |w| - pos
  {
    if pos == |w| {
      ScanAgreesAtEnd(w, open, close, opens);
    } else if OccursAt(w, open, pos) || OccursAt(w, close, pos) {
      var e := if OccursAt(w, open, pos) then Open(pos) else Close(pos);
      if opens + Step(e) == 0 {
        ScanAgreesBalanced(w, open, close, pos, opens, e);
      } else {
        MatchEndFirstBalance(w, open, close, End(e, open, close), opens + Step(e));
        ScanAgreesStep(w, open, close, pos, opens, e);
      }
    } else {
      MatchEndFirstBalance(w, open, close, pos + 1, opens);
      ScanAgreesSkip(w, open, close, pos, opens);
    }
  }

  /** The loop of `FindEndTag` once the tag name is known: the length of the
      element at the start of `w`, found by splitting `w` on `"<" + tag` (a
      prefix match, so `<div` also counts `<divider`) and on
      `"</" + tag + ">"` and balancing the two. */
  function EndTagLength(w: string, tag: string): (r: Result<nat>)
    ensures r.Success? ==> 0 < r.value <= |w|
    ensures r.Failure? ==> r.error == NoMatchingEndTag || r.error == NoTagFound
  {
    MatchEnd(w, "<" + tag, "</" + tag + ">", 0, 0)
  }

  /** `EndTagLength` is decided by the depths of the delimiter list: it
      returns the end of the first delimiter that brings the depth back to
      zero, and otherwise fails with "No matching end tag" when more tags
      were opened than closed and with "No tag found" when not. */
  lemma EndTagLengthFirstBalance(w: string, tag: string)
    ensures var r := EndTagLength(w, tag);
      var open := "<" + tag;
      var close := "</" + tag + ">";
      var ds := Delimiters(w, open, close, 0);
      && (r.Success? ==> exists k :: FirstBalance(ds, 0, k) && r.value == End(ds[k - 1], open, close))
      && (r.Failure? ==> NeverBalanced(ds, 0))
      && (r.Failure? ==> (r.error == NoMatchingEndTag <==> Depth(ds) > 0))
      && (r.Failure? ==> (r.error == NoTagFound <==> Depth(ds) <= 0))
  {
    MatchEndFirstBalance(w, "<" + tag, "</" + tag + ">", 0, 0);
  }

  /** An element whose text starts with its open tag ends with its close
      tag: the balancing always stops on a `</tag>`. */
  lemma EndTagLengthEndsWithClose(w: string, tag: string)
    requires OccursAt(w, "<" + tag, 0)
    ensures EndTagLength(w, tag).Success? ==>
      |"</" + tag + ">"| <= EndTagLength(w, tag).value &&
      OccursAt(w, "</" + tag + ">", EndTagLength(w, tag).value - |"</" + tag + ">"|)
  {
    var open, close := "<" + tag, "</" + tag + ">";
    var ds := Delimiters(w, open, close, 0);
    EndTagLengthFirstBalance(w, tag);
    if EndTagLength(w, tag).Success? {
      var k :| FirstBalance(ds, 0, k) && EndTagLength(w, tag).value == End(ds[k - 1], open, close);
      DelimitersStartWithOpen(w, open, close, 0);
      FirstBalanceEndsWithClose(ds, k);
    }
  }

  /** When no white space separates the `<` from the tag name, the text
      from `start` on begins with `<` and the name. */
  lemma OpenTagAt(source: string, start: int, tag: string)
    requires 0 <= start < |source| && source[start] == '<' && FindTagName(source, start) == Success(tag)
    requires SkipWhiteSpace(source, start + 1) == start + 1
    ensures OccursAt(source[start..], "<" + tag, 0)
  {
    FindTagNameReads(source, start);
    var w := source[start..];
    assert tag == source[start + 1..start + 1 + |tag|];
    assert forall j :: 0 < j < 1 + |tag| ==> w[j] == tag[j - 1];
    assert w[..1 + |tag|] == "<" + tag;
  }

  /** An occurrence in a suffix is an occurrence in the whole text. */
  lemma OccursInSuffix(s: string, k: nat, p: string, i: int)
    requires k <= |s| && OccursAt(s[k..], p, i)
    ensures OccursAt(s, p, k + i)
  {
    assert s[k..][i..i + |p|] == s[k + i..k + i + |p|];
  }

  /** When no white space separates the `<` from the tag name, the length
      `FindEndTag` returns covers the element up to and including its
      `</name>` close tag. */
  lemma FindEndTagEndsWithClose(source: string, start: int)
    requires 0 <= start < |source| && source[start] == '<' && FindTagName(source, start).Success?
    requires SkipWhiteSpace(source, start + 1) == start + 1
    ensures FindEndTag(source, start).Success? ==>
      |"</" + FindTagName(source, start).value + ">"| <= FindEndTag(source, start).value &&
      OccursAt(source, "</" + FindTagName(source, start).value + ">",
        start + FindEndTag(source, start).value - |"</" + FindTagName(source, start).value + ">"|)
  {
    var tag := FindTagName(source, start).value;
    var w := source[start..];
    OpenTagAt(source, start, tag);
    EndTagLengthEndsWithClose(w, tag);
    if FindEndTag(source, start).Success? {
      var n := FindEndTag(source, start).value;
      var close := "</" + tag + ">";
      assert n == EndTagLength(w, tag).value;
      OccursInSuffix(source, start, close, n - |close|);
    }
  }

  /** `FindEndTag(start)`: the length, counted from `start`, of the element
      that starts there. */
  function FindEndTag(source: string, start: int): (r: Result<nat>)
    ensures start < 0 || |source| < start ==> r == Failure(ArgumentOutOfRange)
    ensures start == |source| ==> r == Failure(IndexOutOfRange)
    ensures 0 <= start < |source| && source[start] != '<' ==> r == Failure(NotATag)
    // at a `<`, the tag name is read and the element measured
    ensures 0 <= start < |source| && source[start] == '<' && FindTagName(source, start).Failure? ==>
      r == Failure(ArgumentOutOfRange)
    ensures 0 <= start < |source| && source[start] == '<' && FindTagName(source, start).Success? ==>
      r == EndTagLength(source[start..], FindTagName(source, start).value)
    ensures r.Success? ==> 0 <= start < |source| && source[start] == '<' && 0 < r.value <= |source| - start
  {
    if start < 0 || |source| < start then Failure(ArgumentOutOfRange)
    else
      var w := source[start..];
      if |w| == 0 then Failure(IndexOutOfRange)
      else if w[0] != '<' then Failure(NotATag)
      else
        var tag :- FindTagName(source, start);
        EndTagLength(w, tag)
  }
}

=== FILE: strings.dfy ===
/**
  The .NET `System.String` operations the query engine is built from, with
  ordinal (character-by-character) comparison: `IndexOf`, `LastIndexOf`,
  `IndexOfAny`, `Contains`, `TrimStart`, `Replace(char, char)`, the pieces
  of `Split(string[], None)` and the `RemoveEmptyEntries` filter.
 */
module Strings {

  /** `Char.IsWhiteSpace`: the Unicode space, line and paragraph separators
      and the controls U+0009..U+000D and U+0085. */
  predicate IsWhiteSpace(c: char) {
    || ('\U{9}' <= c <= '\U{D}')
    || c == ' ' || c == '\U{85}' || c == '\U{A0}' || c == '\U{1680}'
    || ('\U{2000}' <= c <= '\U{200A}')
    || c == '\U{2028}' || c == '\U{2029}' || c == '\U{202F}' || c == '\U{205F}' || c == '\U{3000}'
  }

  /** No position from `lo` up to `hi` holds `c`. */
  predicate Absent(s: string, c: char, lo: int, hi: int) {
    forall j :: 0 <= lo <= j < hi <= |s| ==> s[j] != c
  }

  /** `i` is the position of the first `c` in `s`. */
  predicate FirstAt(s: string, c: char, i: int) {
    0 <= i < |s| && s[i] == c && Absent(s, c, 0, i)
  }

  /** `i` is the position of the last `c` in `s[..n]`. */
  predicate LastBefore(s: string, c: char, i: int, n: int) {
    0 <= i < n <= |s| && s[i] == c && Absent(s, c, i + 1, n)
  }

  /** `p` occurs in `s` starting at position `i`. */
  predicate OccursAt(s: string, p: string, i: int) {
    0 <= i && i + |p| <= |s| && s[i..i + |p|] == p
  }

  /** `s.Contains(p)` */
  predicate Contains(s: string, p: string) {
    exists i :: 0 <= i <= |s| - |p| && OccursAt(s, p, i)
  }

  lemma FirstAtUnique(s: string, c: char, i: int, j: int)
    requires FirstAt(s, c, i) && FirstAt(s, c, j)
    ensures i == j
  {
  }

  /** `s.IndexOf(c)` restricted to positions at or after `from`. */
  function IndexOfCharFrom(s: string, c: char, from: nat): (r: int)
    requires from <= |s|
    ensures r == -1 || from <= r < |s|
    ensures r == -1 ==> Absent(s, c, from, |s|)
    ensures 0 <= r ==> s[r] == c && Absent(s, c, from, r)
    decreases |s| - from
  {
    if from == |s| then -1
    else if s[from] == c then from
    else IndexOfCharFrom(s, c, from + 1)
  }

  /** The scan from `from` stops at the first `c` there. */
  lemma IndexOfCharFromAt(s: string, c: char, from: nat, e: nat)
    requires from <= e < |s| && s[e] == c && Absent(s, c, from, e)
    ensures IndexOfCharFrom(s, c, from) == e
  {
    var r := IndexOfCharFrom(s, c, from);
    assert r != -1 by {
      assert !Absent(s, c, from, |s|);
    }
    assert !(r < e) && !(e < r);
  }

  /** `s.IndexOf(c)`: the first position of `c`, or -1. */
  function IndexOfChar(s: string, c: char): (r: int)
    ensures r == -1 <==> c !in s
    ensures r != -1 ==> FirstAt(s, c, r)
  {
    IndexOfCharFrom(s, c, 0)
  }

  /** The last position of `c` before `n`, or -1. */
  function LastIndexOfCharBefore(s: string, c: char, n: nat): (r: int)
    requires n <= |s|
    ensures -1 <= r < n
    ensures r == -1 ==> Absent(s, c, 0, n)
    ensures 0 <= r ==> LastBefore(s, c, r, n)
  {
    if n == 0 then -1
    else if s[n - 1] == c then n - 1
    else LastIndexOfCharBefore(s, c, n - 1)
  }

  /** The first position at or after `from` holding `a` or `b`, or -1. */
  function IndexOfAnyFrom(s: string, a: char, b: char, from: nat): (r: int)
    requires from <= |s|
    ensures r == -1 || from <= r < |s|
    ensures r == -1 ==> Absent(s, a, from, |s|) && Absent(s, b, from, |s|)
    ensures 0 <= r ==> (s[r] == a || s[r] == b) && Absent(s, a, from, r) && Absent(s, b, from, r)
    decreases |s| - from
  {
    if from == |s| then -1
    else if s[from] == a || s[from] == b then from
    else IndexOfAnyFrom(s, a, b, from + 1)
  }

  /** The scan from `from` stops at the first `a` or `b` there. */
  lemma IndexOfAnyFromAt(s: string, a: char, b: char, from: nat, e: nat)
    requires from <= e < |s| && (s[e] == a || s[e] == b) && Absent(s, a, from, e) && Absent(s, b, from, e)
    ensures IndexOfAnyFrom(s, a, b, from) == e
  {
    var r := IndexOfAnyFrom(s, a, b, from);
    assert r != -1 by {
      assert !Absent(s, s[e], from, |s|);
    }
    assert !(r < e) && !(e < r);
  }

  /** `s.IndexOfAny(new[] { a, b })`: the first position holding `a` or `b`, or -1. */
  function IndexOfAny(s: string, a: char, b: char): (r: int)
    ensures -1 <= r < |s|
    ensures r == -1 <==> a !in s && b !in s
    ensures 0 <= r ==> (s[r] == a || s[r] == b) && Absent(s, a, 0, r) && Absent(s, b, 0, r)
  {
    IndexOfAnyFrom(s, a, b, 0)
  }

  /** Ordinal `s.IndexOf(p)` restricted to positions at or after `from`:
      the first occurrence of `p` there, or -1 (see `IndexOfFromFirst`). */
  function IndexOfFrom(s: string, p: string, from: nat): (r: int)
    requires from <= |s|
    ensures r == -1 || (from <= r && r + |p| <= |s|)
    decreases |s| - from
  {
    if from + |p| > |s| then -1
    else if s[from..from + |p|] == p then from
    else IndexOfFrom(s, p, from + 1)
  }

  /** `IndexOfFrom` finds the first occurrence at or after `from`, and -1
      exactly when there is none. */
  lemma {:induction false} IndexOfFromFirst(s: string, p: string, from: nat)
    requires from <= |s|
    ensures var r := IndexOfFrom(s, p, from);
      && (r == -1 || OccursAt(s, p, r))
      && (r == -1 ==> forall i :: from <= i ==> !OccursAt(s, p, i))
      && (0 <= r ==> forall i :: from <= i < r ==> !OccursAt(s, p, i))
    decreases |s| - from
  {
    if from + |p| <= |s| && s[from..from + |p|] != p {
      IndexOfFromFirst(s, p, from + 1);
    }
  }

  /** Ordinal `s.IndexOf(p)`. */
  function IndexOfString(s: string, p: string): (r: int)
    ensures r == -1 <==> !Contains(s, p)
    ensures 0 <= r ==> OccursAt(s, p, r) && forall i :: 0 <= i < r ==> !OccursAt(s, p, i)
  {
    IndexOfFromFirst(s, p, 0);
    IndexOfFrom(s, p, 0)
  }

  /** The first position at or after `i` that does not hold white space. */
  function SkipWhiteSpace(s: string, i: nat): (r: nat)
    requires i <= |s|
    ensures i <= r <= |s|
    ensures forall j :: i <= j < r ==> IsWhiteSpace(s[j])
    ensures r < |s| ==> !IsWhiteSpace(s[r])
    decreases |s| - i
  {
    if i < |s| && IsWhiteSpace(s[i]) then SkipWhiteSpace(s, i + 1) else i
  }

  /** `s.TrimStart()` (also `s.TrimStart(new char[0])`): drops the leading white space. */
  function TrimStart(s: string): (r: string)
    ensures |r| <= |s| && r == s[|s| - |r|..]
    ensures forall i :: 0 <= i < |s| - |r| ==> IsWhiteSpace(s[i])
    ensures |r| > 0 ==> !IsWhiteSpace(r[0])
  {
    s[SkipWhiteSpace(s, 0)..]
  }

  /** `s.Replace(oldChar, newChar)` for characters. */
  function ReplaceChar(s: string, oldChar: char, newChar: char): (r: string)
    ensures |r| == |s|
    ensures forall i :: 0 <= i < |s| ==> r[i] == (if s[i] == oldChar then newChar else s[i])
  {
    seq(|s|, i requires 0 <= i < |s| => if s[i] == oldChar then newChar else s[i])
  }

  /*
    Small facts about slices and concatenations used by the proofs.
   */

  /** The head and the tail of a list built by putting one element in front. */
  lemma HeadTail<T>(xs: seq<T>, x: T, rest: seq<T>)
    requires xs == [x] + rest
    ensures |xs| == |rest| + 1 && xs[0] == x && xs[1..] == rest
  {
  }

  /** A suffix of a suffix is a suffix. */
  lemma DropDrop(s: string, a: nat, b: nat)
    requires a + b <= |s|
    ensures s[a..][b..] == s[a + b..]
  {
  }

  /** A prefix of a suffix is a slice. */
  lemma TakeOfSuffix(t: string, s: string, a: nat, b: nat)
    requires a <= b <= |s| && t == s[a..]
    ensures t[..b - a] == s[a..b]
  {
  }

  /** The two halves of a concatenation. */
  lemma Halves(s: string, a: string, b: string)
    requires s == a + b
    ensures |s| == |a| + |b| && s[..|a|] == a && s[|a|..] == b
  {
  }

  /*
    Ordinal `String.Split` on one non-empty separator. The separator is
    found leftmost-first and scanning resumes after each occurrence, so the
    occurrences never overlap.
   */

  /** Start positions of the occurrences `Split` cuts at, from `from` on. */
  function Occurrences(s: string, sep: string, from: nat): (r: seq<nat>)
    requires 0 < |sep| && from <= |s|
    ensures forall k :: 0 <= k < |r| ==> from <= r[k]
    decreases |s| - from
  {
    var i := IndexOfFrom(s, sep, from);
    if i < 0 then [] else [i] + Occurrences(s, sep, i + |sep|)
  }

  /** The separator does occur at each of its occurrences, and the
      occurrences do not overlap. */
  lemma {:induction false} OccurrencesMatch(s: string, sep: string, from: nat)
    requires 0 < |sep| && from <= |s|
    ensures forall k :: 0 <= k < |Occurrences(s, sep, from)| ==> OccursAt(s, sep, Occurrences(s, sep, from)[k])
    ensures forall k, l :: 0 <= k < l < |Occurrences(s, sep, from)| ==>
      Occurrences(s, sep, from)[k] + |sep| <= Occurrences(s, sep, from)[l]
    decreases |s| - from
  {
    var i := IndexOfFrom(s, sep, from);
    IndexOfFromFirst(s, sep, from);
    if 0 <= i {
      var os, rest := Occurrences(s, sep, from), Occurrences(s, sep, i + |sep|);
      OccurrencesMatch(s, sep, i + |sep|);
      assert os == [i] + rest;
      assert os[0] == i && OccursAt(s, sep, i);
      assert forall k :: 0 < k < |os| ==> os[k] == rest[k - 1];
    }
  }

  /** The cuts are the leftmost ones: the separator does not occur between
      the scan start and the first cut, between the end of one cut and the
      next cut, or after the end of the last cut. */
  lemma {:induction false} OccurrencesLeftmost(s: string, sep: string, from: nat)
    requires 0 < |sep| && from <= |s|
    ensures |Occurrences(s, sep, from)| == 0 ==> forall i :: from <= i ==> !OccursAt(s, sep, i)
    ensures |Occurrences(s, sep, from)| > 0 ==> forall i :: from <= i < Occurrences(s, sep, from)[0] ==> !OccursAt(s, sep, i)
    ensures forall k, i :: 0 < k < |Occurrences(s, sep, from)| && Occurrences(s, sep, from)[k - 1] + |sep| <= i < Occurrences(s, sep, from)[k] ==>
      !OccursAt(s, sep, i)
    ensures |Occurrences(s, sep, from)| > 0 ==>
      forall i :: Occurrences(s, sep, from)[|Occurrences(s, sep, from)| - 1] + |sep| <= i ==> !OccursAt(s, sep, i)
    decreases |s| - from
  {
    var i := IndexOfFrom(s, sep, from);
    IndexOfFromFirst(s, sep, from);
    if 0 <= i {
      var next := i + |sep|;
      var os, rest := Occurrences(s, sep, from), Occurrences(s, sep, next);
      OccurrencesLeftmost(s, sep, next);
      HeadTail(os, i, rest);
      forall k, j | 0 < k < |os| && os[k - 1] + |sep| <= j < os[k]
        ensures !OccursAt(s, sep, j)
      {
        assert os[k] == rest[k - 1];
        if k > 1 {
          assert os[k - 1] == rest[k - 2];
        }
      }
      if |rest| > 0 {
        assert os[|os| - 1] == rest[|rest| - 1];
      }
    }
  }

  /** `s.Substring(from).Split(new[] { sep }, StringSplitOptions.None)`:
      the texts between consecutive occurrences. */
  function Pieces(s: string, sep: string, from: nat): (r: seq<string>)
    requires 0 < |sep| && from <= |s|
    ensures |r| >= 1
    decreases |s| - from
  {
    var i := IndexOfFrom(s, sep, from);
    if i < 0 then [s[from..]] else [s[from..i]] + Pieces(s, sep, i + |sep|)
  }

  /** Adding one piece and one occurrence keeps one piece more than there are occurrences. */
  lemma CountCons(ps: seq<string>, os: seq<nat>, o: nat, rest: seq<string>, orest: seq<nat>)
    requires |ps| == |rest| + 1 && os == [o] + orest && |rest| == |orest| + 1
    ensures |ps| == |os| + 1
  {
  }

  /** There is one piece more than there are occurrences of the separator. */
  lemma {:induction false} PiecesCount(s: string, sep: string, from: nat)
    requires 0 < |sep| && from <= |s|
    ensures |Pieces(s, sep, from)| == |Occurrences(s, sep, from)| + 1
    decreases |s| - from
  {
    var i := IndexOfFrom(s, sep, from);
    if 0 <= i {
      PiecesCount(s, sep, i + |sep|);
      CountCons(Pieces(s, sep, from), Occurrences(s, sep, from), i, Pieces(s, sep, i + |sep|), Occurrences(s, sep, i + |sep|));
    }
  }

  /** `string.Join(sep, pieces)` */
  function Join(pieces: seq<string>, sep: string): string {
    if |pieces| == 0 then ""
    else if |pieces| == 1 then pieces[0]
    else pieces[0] + sep + Join(pieces[1..], sep)
  }

  /** Joining a piece in front of a non-empty list puts one separator
      between it and the join of the rest. */
  lemma JoinCons(ps: seq<string>, piece: string, rest: seq<string>, sep: string, tail: string)
    requires ps == [piece] + rest && |rest| >= 1 && Join(rest, sep) == tail
    ensures Join(ps, sep) == piece + sep + tail
  {
    assert ps[1..] == rest;
  }

  /** Around an occurrence of `sep` at `i`, the text from `from` on is the
      text before it, `sep`, and the text after it. */
  lemma SplitAround(s: string, sep: string, from: nat, i: nat)
    requires from <= i && i + |sep| <= |s| && s[i..i + |sep|] == sep
    ensures s[from..] == s[from..i] + sep + s[i + |sep|..]
  {
    assert s[from..] == s[from..i] + s[i..i + |sep|] + s[i + |sep|..];
  }

  /** The first cut of `Pieces`: none when the separator does not occur from
      `from` on, else the piece before its first occurrence `i` and the
      pieces after it. */
  lemma PiecesNext(s: string, sep: string, from: nat) returns (i: int)
    requires 0 < |sep| && from <= |s|
    ensures i < 0 ==> Pieces(s, sep, from) == [s[from..]]
    ensures 0 <= i ==> from <= i && i + |sep| <= |s| && s[i..i + |sep|] == sep
    ensures 0 <= i ==> Pieces(s, sep, from) == [s[from..i]] + Pieces(s, sep, i + |sep|)
  {
    i := IndexOfFrom(s, sep, from);
    IndexOfFromFirst(s, sep, from);
  }

  /** Joining the pieces back with the separator restores the text. */
  lemma {:induction false} JoinPieces(s: string, sep: string, from: nat)
    requires 0 < |sep| && from <= |s|
    ensures Join(Pieces(s, sep, from), sep) == s[from..]
    decreases |s| - from
  {
    var i := PiecesNext(s, sep, from);
    if 0 <= i {
      var next := i + |sep|;
      JoinPieces(s, sep, next);
      SplitAround(s, sep, from, i);
      JoinCons(Pieces(s, sep, from), s[from..i], Pieces(s, sep, next), sep, s[next..]);
    }
  }

  /** No piece of a split contains the separator: each cut is at the first
      occurrence after the previous one. */
  lemma {:induction false} PiecesWithoutSeparator(s: string, sep: string, from: nat)
    requires 0 < |sep| && from <= |s|
    ensures forall k :: 0 <= k < |Pieces(s, sep, from)| ==> !Contains(Pieces(s, sep, from)[k], sep)
    decreases |s| - from
  {
    var i := IndexOfFrom(s, sep, from);
    IndexOfFromFirst(s, sep, from);
    var ps := Pieces(s, sep, from);
    var end := if i < 0 then |s| else i;
    assert ps[0] == s[from..end];
    assert !Contains(ps[0], sep) by {
      forall j | 0 <= j <= |ps[0]| - |sep|
        ensures !OccursAt(ps[0], sep, j)
      {
        assert ps[0][j..j + |sep|] == s[from + j..from + j + |sep|];
        assert !OccursAt(s, sep, from + j);
      }
    }
    if 0 <= i {
      var rest := Pieces(s, sep, i + |sep|);
      PiecesWithoutSeparator(s, sep, i + |sep|);
      assert forall k :: 0 < k < |ps| ==> ps[k] == rest[k - 1];
    }
  }

  /** `StringSplitOptions.RemoveEmptyEntries`: drops the empty pieces and keeps the order. */
  function RemoveEmpty(pieces: seq<string>): (r: seq<string>)
    ensures |r| <= |pieces|
    ensures forall x :: x in r <==> x in pieces && |x| > 0
    ensures (forall k :: 0 <= k < |pieces| ==> |pieces[k]| > 0) ==> r == pieces
  {
    if |pieces| == 0 then []
    else if |pieces[0]| == 0 then RemoveEmpty(pieces[1..])
    else [pieces[0]] + RemoveEmpty(pieces[1..])
  }

  /** Removing the empty pieces works piece by piece: the kept pieces of
      two lists, one after the other, are the kept pieces of the two lists
      joined, so the order and the repetitions of the pieces are kept. */
  lemma {:induction false} RemoveEmptyAppend(a: seq<string>, b: seq<string>)
    ensures RemoveEmpty(a + b) == RemoveEmpty(a) + RemoveEmpty(b)
  {
    if |a| > 0 {
      assert (a + b)[0] == a[0] && (a + b)[1..] == a[1..] + b;
      RemoveEmptyAppend(a[1..], b);
    } else {
      assert a + b == b;
    }
  }
}
